=== FILE: README.md ===
# spawn-subagent Zellij plugin — a Dafny model of its core

The plugin (plugin/src/main.rs) is a small state machine inside Zellij. It
lists the git worktrees that `spawn-agent` created under
`$HOME/.spawn-agent/<repo>/`. From that list the user can spawn a coding
agent on a worktree's branch, pick or type a branch for a new agent, or
remove a worktree. The host calls back with key presses and with the results
of the commands the plugin fired.

The model covers:

- **Parsers**: `parse_worktrees` over `git worktree list --porcelain` and
  `parse_branches` over `git branch --format=%(refname:short)`. Rust's
  `str::lines`, `str::trim` (Unicode `White_Space`), `starts_with` /
  `strip_prefix` and `rsplit('/')` are modelled in module `Text`.
- **State** (`PluginState`; `Worktree` is declared in `Parsers`): `Mode`,
  `Worktree` and `State` as immutable datatypes. Host calls (`run_command…`, `close_self`) become `Effect` values
  that each handler returns in a `Transition`.
- **Key handlers** (`KeyHandlers`): the four per-mode handlers.
- **Result handlers** (`ResultHandlers`): the five command-result handlers.
  `$HOME` is a parameter.
- **Commands** (`Commands`): the `fire_*` helpers, as the command each effect
  runs, and the `cmd_type` routing.
- **Dispatch** (`Plugin`): `update`, plus `Run` for a sequence of events.
- **Invariants** (`Invariants`): properties across events. These cover the
  cursor invariant and where it lapses, the mode graph, the round trip of a
  command through its context, and what events never change.

Behaviour worth noting, as the code has it:

- The repository root is the trimmed output of
  `git rev-parse --show-toplevel`. No `/.git` suffix is stripped, and the
  name is the text after the last '/'. The "unknown" fallback is unreachable,
  because `rsplit` always yields an item (`LastSegment`).
- Worktrees are filtered with `starts_with` on the managed directory, which
  ends in '/'. The filter is not a substring test.
- After a spawn or removal result, only the worktree listing is requested
  again, not the branches. Only the `r` key and a successful toplevel result list both.
- Nothing closes tabs. The only thing that closes anything is `q`/Esc, which
  closes the plugin itself.
- When a new listing is empty, the cursor is left where it was. It is not
  reset to 0.

## Model

| member | source | states |
|---|---|---|
| Parsers.ParseWorktrees | plugin/src/main.rs:54-76 | every returned worktree's path starts with the managed prefix; empty output gives no worktree |
| Parsers.ScanAppend | plugin/src/main.rs:58-73 | reading `a + b` yields what `a` yields, then what `b` yields from the path `a` left current: output follows input order |
| Parsers.ScanMatchesReference | plugin/src/main.rs:54-76 | the line loop equals an index-based reference in which each `branch ` line pairs with the last `worktree ` line above it |
| Parsers.ShortBranch | plugin/src/main.rs:63-66 | one leading `refs/heads/` is removed when present; any other reference is kept whole |
| Porcelain.ParsePorcelainText | plugin/src/main.rs:54-76 | for records of the shape the repository's tests use (`worktree`, `HEAD`, then `branch` or `bare`), printed with every record closed by a blank line as git does, parsing returns exactly the records that have a branch and lie under the prefix, in order, with short names |
| Porcelain.ParsePorcelainOutput | plugin/src/main.rs:54-76 | the same for the text the parser tests use, with no blank line after the last record |
| Porcelain.PathIsNeverCleared | plugin/src/main.rs:55-60 | the current path survives an emitted entry: two `branch ` lines after one `worktree ` line both pair with its path |
| Porcelain.BranchBeforeAnyWorktree | plugin/src/main.rs:56-62 | a `branch ` line before any `worktree ` line pairs with the empty path, so it is kept only for an empty prefix |
| Porcelain.FiltersByPrefixExample | plugin/src/main.rs:452-477 | of the test's four records, only the two under `.spawn-agent/myrepo/` are parsed out, in order |
| Porcelain.BareEntrySkippedExample | plugin/src/main.rs:486-498 | the test's bare managed record and unmanaged branch record give no worktree |
| Parsers.ParseBranches | plugin/src/main.rs:79-85 | every branch is non-empty and has no edge whitespace; empty output gives no branch |
| Parsers.ParseBranchLinesMembers | plugin/src/main.rs:79-85 | a name is parsed out exactly when it is non-empty and is the trim of some line (both directions) |
| Parsers.ParseBranchLinesAppend | plugin/src/main.rs:79-85 | the branch parser distributes over concatenated line lists |
| Parsers.ParseBranchesRoundTrip | plugin/src/main.rs:79-85 | branch names printed one per line parse back to the same names, in order, duplicates included |
| Parsers.BranchesBasicExample | plugin/src/main.rs:501-505 | "main\nfeature/cool\nfix-bug\n" parses to the three names |
| Parsers.BranchesStripWhitespace | plugin/src/main.rs:79-85 | two blank-padded names around an empty line parse to just the two names |
| Parsers.BranchesStripWhitespaceExample | plugin/src/main.rs:508-512 | "  main \n\n  dev  \n" parses to ["main", "dev"] |
| Text.Trim | plugin/src/main.rs:82 | the trim has no whitespace at either end, and a text without edge whitespace is its own trim |
| Text.TrimEmptyIffAllWhitespace | plugin/src/main.rs:82-83 | a line is dropped exactly when it is all whitespace |
| Text.TrimIsInfix | plugin/src/main.rs:82 | what the trim drops is whitespace padding around an infix of the line |
| Text.LinesOfJoinLines | plugin/src/main.rs:58 | splitting lines that hold no line break, each followed by '\n', gives the lines back |
| Text.LinesOfJoinLinesThen | plugin/src/main.rs:58 | a final line with no '\n' after it is kept as the last line, after the terminated lines before it |
| Text.LinesUnterminated | plugin/src/main.rs:58 | text with no '\n' at all is one line, kept whole |
| Text.LinesCrLf | plugin/src/main.rs:58 | a line ended by "\r\n" loses the '\r' as well as the '\n' |
| Text.LastSegment | plugin/src/main.rs:162-166 | the name has no '/', is a suffix of the root, and is preceded by '/' unless it is the whole root |
| Commands.Route | plugin/src/main.rs:389-397 | a context whose `cmd_type` is one of the five tags routes to that kind, whatever other keys it holds, and a routed kind's tag is the context's `cmd_type`; a missing tag is ignored |
| Commands.CommandFor | plugin/src/main.rs:89-152 | the exact argv of each `fire_*` helper (`git rev-parse --show-toplevel`, `git worktree list --porcelain`, `git branch --format=%(refname:short)`, spawn and remove); toplevel runs in the host's default directory and every other command in the repository root; the context holds exactly `cmd_type`, plus `branch` for spawn and remove |
| Commands.RoutesBack | plugin/src/main.rs:89-152 | every fired command comes back to the handler of its own kind |
| ResultHandlers.HandleGitToplevel | plugin/src/main.rs:154-171 | failure: only the status changes, to "Not a git repo: " and the untrimmed stderr. Success: root is the trimmed stdout, name is the text after its last '/', mode is BrowseWorktrees, both listings are fired |
| ResultHandlers.ToplevelNamesRepository | plugin/src/main.rs:154-171 | output `dir/name\n` yields root `dir/name` and name `name` |
| ResultHandlers.ClampCursor | plugin/src/main.rs:179-181 | a cursor past the end of a non-empty list becomes its last row (`len - 1`); a cursor in range is kept; on an empty list it is left alone |
| ResultHandlers.HandleListWorktrees | plugin/src/main.rs:173-182 | worktrees become the parse of stdout under `$HOME/.spawn-agent/<repo_name>/`; a cursor past the end of a non-empty list becomes its last row, one in range is kept; nothing else changes |
| ResultHandlers.HandleGitBranches | plugin/src/main.rs:184-187 | branches become the parse of stdout; nothing else changes, not even the picker's copy |
| ResultHandlers.HandleSpawnResult | plugin/src/main.rs:190-201 | the status is "Spawned '<branch>'" or "Error: " and the trimmed stderr; only the worktree listing is fired again; the mode is kept |
| ResultHandlers.HandleRemoveResult | plugin/src/main.rs:203-215 | the status is "Removed '<branch>'" or "Remove failed: " and the trimmed stderr; BrowseWorktrees whatever the outcome; only the listing is fired again |
| KeyHandlers.Next | plugin/src/main.rs:220-224 | the cursor moves one row down and wraps from the last row to the first |
| KeyHandlers.Prev | plugin/src/main.rs:225-233 | from a row in range, one row up lands on a row in range that one row down brings back to the start |
| KeyHandlers.PrevUndoesNext | plugin/src/main.rs:220-233 | one row up undoes one row down, so on the rows the two moves are inverse bijections |
| KeyHandlers.HandleKeyBrowse | plugin/src/main.rs:217-268 | each binding key by key: `j`/`k`/arrows move with wrap-around, Enter spawns on the selected branch, `n` opens the picker, `i` opens the input, `d` asks to confirm, `r` re-lists both, `q`/Esc closes. Modifiers and every other key are ignored, and `j`, `k`, Enter and `d` do nothing on an empty list |
| KeyHandlers.HandleKeySelectBranch | plugin/src/main.rs:270-302 | `j`/`k` move over the filtered branches. Enter on a branch spawns on it and returns to the list without resetting the cursor. Esc returns with the cursor at 0. Every other key is ignored |
| KeyHandlers.HandleKeyInputBranch | plugin/src/main.rs:304-331 | characters are typed without modifiers or with Shift alone; Backspace pops; Enter spawns on the trimmed buffer unless it is blank; Esc returns with the cursor at 0; other keys are ignored |
| KeyHandlers.HandleKeyConfirming | plugin/src/main.rs:333-350 | `y` requests removal of the selected branch and stays in Confirming; `n`/Esc returns to the list; other keys are ignored |
| KeyHandlers.BrowseDownCycles | plugin/src/main.rs:220-224 | pressing Down once per worktree returns to the very same state |
| KeyHandlers.TypeThenEraseRestores | plugin/src/main.rs:323-328 | typing a text and pressing Backspace once per character restores the state |
| Plugin.HandleKey | plugin/src/main.rs:400-409 | each mode's keys go to that mode's handler, whose transition is returned unchanged; Loading ignores them |
| Plugin.HandleResult | plugin/src/main.rs:389-398 | each of the five tags reaches its own handler, whose transition is returned unchanged; results with an unknown or missing tag change nothing; no result changes the configuration, the input buffer or the picker's list |
| Plugin.Update | plugin/src/main.rs:378-411 | granted permission fires the toplevel query; denied permission sets the error status; every handled event asks for a render, and other events neither render nor change anything |
| Invariants.KeyDispatch | plugin/src/main.rs:400-409 | through `update`, a key press in each mode yields exactly that mode's handler's state and effects and asks for a render |
| Invariants.ToplevelDispatch | plugin/src/main.rs:389-391 | through `update`, a result tagged `git_toplevel` yields exactly `handle_git_toplevel`'s state and effects |
| Invariants.ResultDispatch | plugin/src/main.rs:387-398 | through `update`, a listing, branch, spawn or removal result yields exactly its handler's state and effects; an untagged result changes nothing but still renders |
| PluginState.SpawnPrefixesAreDisjoint | plugin/src/main.rs:176 | the trailing '/' keeps repositories apart: no path lies under the managed directories of two different names |
| Invariants.UpdateKeepsCursorInRange | plugin/src/main.rs:217-350 | every event keeps the cursor on the active list, except leaving the branch picker for the worktree list |
| Invariants.StaleCursorAfterPickerEnter | plugin/src/main.rs:287-294 | the exception is real: Enter on the second of two branches with one worktree listed leaves the cursor past the list's end |
| Invariants.ListingRestoresCursor | plugin/src/main.rs:173-182 | a worktree listing puts the cursor back in range on every screen but the picker |
| Invariants.ModeGraph | plugin/src/main.rs:154-350 | sub-screens open only from the worktree list by key; every other mode change leads to the worktree list |
| Invariants.RemovalRoundTrip | plugin/src/main.rs:203-215 | `y` fires the removal and stays put; its result, whatever the exit code, returns to the list and re-lists the worktrees |
| Invariants.SpawnRoundTrip | plugin/src/main.rs:190-201 | a spawn result comes back with its branch, keeps the screen and re-lists only the worktrees |
| Invariants.OnlyPermissionAsksForRoot | plugin/src/main.rs:378-411 | only granted permission fires `git rev-parse --show-toplevel` |
| Invariants.RunKeepsConfig | plugin/src/main.rs:378-411 | no sequence of events changes the configured commands |
| Invariants.RunKeepsRepo | plugin/src/main.rs:154-171 | without a successful toplevel result, the repository root and name never change |
| Invariants.LoadingIgnoresKeys | plugin/src/main.rs:402 | while loading, no sequence of keys has any effect |
| Invariants.StartUp | plugin/src/main.rs:378-411 | granted permission followed by the toplevel answer opens the worktree list and fires exactly toplevel, listing and branches |

## Left out

- Rendering (`render`, plugin/src/ui.rs), `register_plugin!`, and the
  `request_permission` / `subscribe` calls of `load`: host plumbing with no
  logic to state.
- The `load` configuration defaults (`agent_cmd`, `spawn_agent_path`). The
  model takes both as fields of the state.
- `String::from_utf8_lossy`: command output arrives as decoded text, so
  invalid UTF-8 replacement is not modelled.
- Porcelain.ParsePorcelainText: only records of the tests' shape are
  rendered from `Record` values. git's other porcelain shapes (a `bare`
  record without `HEAD`, `detached`, `locked [reason]`, `prunable <reason>`)
  are not; the parser on every line list, those included, is pinned by
  `Parsers.ScanMatchesReference`.
- ResultHandlers.HandleListWorktrees: `$HOME` is a parameter, not a read of
  the environment; pass "" where HOME is unset.
- Commands.CommandFor: the environment maps that `fire_spawn` and
  `fire_remove` pass along (`ZELLIJ`, `ZELLIJ_SESSION_NAME`) are not part of
  the command. They are process-environment reads.
- Plugin.Update: exit codes are `Option<int>`, not `Option<i32>`. Only
  equality with `Some(0)` is ever tested, so the width does not matter.
- KeyHandlers.Next: `selected_index + 1` is unbounded. A `usize` overflow
  would need a cursor at `usize::MAX`, which no handler can produce.
- ResultHandlers.HandleGitToplevel: no `/.git` suffix is stripped from the
  root and there is no "unknown" repository name, because the code does
  neither (see above).
- Plugin.HandleResult: a spawn or removal result re-fires only the worktree
  listing; the branch listing is not refreshed.
- Plugin.Update: no tab is ever closed; `q`/Esc closes only the plugin.
- ResultHandlers.ClampCursor: an empty listing does not reset the cursor to
  0. The cursor keeps its value, so `Invariants.CursorInRange`
  treats an empty list as in range.
- Invariants.UpdateKeepsCursorInRange: leaving the branch picker keeps the
  picker's cursor for the worktree list (Enter, or a toplevel or removal
  result arriving there). The cursor invariant is therefore stated with that
  exception, and `StaleCursorAfterPickerEnter` shows it. The worktree list
  is drawn with `enumerate().skip(start).take(max_visible)` and highlights
  the row equal to the cursor (plugin/src/ui.rs is not part of this model),
  so a stale cursor highlights no row; once it reaches `max_visible`, `start`
  lies past the list's end and no row is drawn at all.

=== FILE: commands.dfy ===
/** What each requested effect runs (the `fire_*` helpers of
    plugin/src/main.rs) and how `update` routes a finished command back to
    its handler through the `cmd_type` entry of the command's context. */
module Commands {
  import opened Wrappers
  import opened PluginState

  // The `cmd_type` values the plugin tags its commands with.
  const CmdGitToplevel: string := "git_toplevel"
  const CmdListWorktrees: string := "list_worktrees"
  const CmdGitBranches: string := "git_branches"
  const CmdSpawn: string := "spawn"
  const CmdRemove: string := "remove"

  /** The handler a finished command is routed to. */
  datatype CommandKind = Toplevel | ListWorktrees | Branches | Spawn | Remove

  /** A host command: its argument vector, the working directory (None for
      the host's default) and the context echoed back with its result.
      Environment variables passed along are not modelled. */
  datatype Command = Command(argv: seq<string>, cwd: Option<string>, context: map<string, string>)

  /** The `cmd_type` tag of each kind. */
  function CmdType(k: CommandKind): string {
    match k
    case Toplevel => CmdGitToplevel
    case ListWorktrees => CmdListWorktrees
    case Branches => CmdGitBranches
    case Spawn => CmdSpawn
    case Remove => CmdRemove
  }

  /** The routing of `update`: the kind named by the context's `cmd_type`,
      or None when the entry is missing or unknown. */
  function Route(context: map<string, string>): (k: Option<CommandKind>)
    ensures k.Some? ==> "cmd_type" in context && context["cmd_type"] == CmdType(k.value)
    ensures "cmd_type" !in context ==> k.None?
    ensures forall kind :: "cmd_type" in context && context["cmd_type"] == CmdType(kind) ==> k == Some(kind)
  {
    if "cmd_type" !in context then None
    else
      var tag := context["cmd_type"];
      if tag == CmdGitToplevel then Some(Toplevel)
      else if tag == CmdListWorktrees then Some(ListWorktrees)
      else if tag == CmdGitBranches then Some(Branches)
      else if tag == CmdSpawn then Some(Spawn)
      else if tag == CmdRemove then Some(Remove)
      else None
  }

  /** The five tags are pairwise different. */
  lemma CmdTypesDistinct(a: CommandKind, b: CommandKind)
    ensures CmdType(a) == CmdType(b) ==> a == b
  {
    assert CmdGitToplevel[0] == 'g' && CmdGitToplevel[4] == 't';
    assert CmdGitBranches[0] == 'g' && CmdGitBranches[4] == 'b';
    assert CmdListWorktrees[0] == 'l';
    assert CmdSpawn[0] == 's';
    assert CmdRemove[0] == 'r';
  }

  /** `ctx(cmd_type)`: a context holding just the tag. */
  function Ctx(k: CommandKind): map<string, string> {
    map["cmd_type" := CmdType(k)]
  }

  /** The kind of command an effect fires; None for `CloseSelf`. */
  function KindOf(e: Effect): Option<CommandKind> {
    match e
    case RunToplevel => Some(Toplevel)
    case RunListWorktrees => Some(ListWorktrees)
    case RunBranches => Some(Branches)
    case RunSpawn(_) => Some(Spawn)
    case RunRemove(_) => Some(Remove)
    case CloseSelf => None
  }

  /** The command an effect runs; None for `CloseSelf`, which is no
      command. `s` is the state the requesting handler leaves behind (its
      `Transition.next`): the `fire_*` helpers read the repository root and
      the configured commands after the handler has updated them, as
      `handle_git_toplevel` does when it stores the root before listing.
      Spawn and remove add the branch to the context; every command except
      the first runs in the repository root. */
  function CommandFor(s: State, e: Effect): (c: Option<Command>)
    ensures c.Some? <==> !e.CloseSelf?
    ensures c.Some? ==> "cmd_type" in c.value.context && c.value.context["cmd_type"] == CmdType(KindOf(e).value)
    ensures c.Some? && !e.RunToplevel? ==> c.value.cwd == Some(s.repoRoot)
    ensures (e.RunSpawn? || e.RunRemove?) ==> c.Some? && "branch" in c.value.context && c.value.context["branch"] == e.branch
    ensures e.RunSpawn? ==> c.Some? && c.value.argv == [s.spawnAgentPath, e.branch, s.agentCmd]
    ensures e.RunRemove? ==> c.Some? && c.value.argv == [s.spawnAgentPath, "remove", e.branch]
    ensures e.RunToplevel? ==> c.Some? && c.value.argv == ["git", "rev-parse", "--show-toplevel"] && c.value.cwd.None?
    ensures e.RunListWorktrees? ==> c.Some? && c.value.argv == ["git", "worktree", "list", "--porcelain"]
    ensures e.RunBranches? ==> c.Some? && c.value.argv == ["git", "branch", "--format=%(refname:short)"]
    ensures c.Some? && (e.RunSpawn? || e.RunRemove?) ==> c.value.context.Keys == {"cmd_type", "branch"}
    ensures c.Some? && !e.RunSpawn? && !e.RunRemove? ==> c.value.context.Keys == {"cmd_type"}
  {
    match e
    case RunToplevel => Some(Command(["git", "rev-parse", "--show-toplevel"], None, Ctx(Toplevel)))
    case RunListWorktrees => Some(Command(["git", "worktree", "list", "--porcelain"], Some(s.repoRoot), Ctx(ListWorktrees)))
    case RunBranches => Some(Command(["git", "branch", "--format=%(refname:short)"], Some(s.repoRoot), Ctx(Branches)))
    case RunSpawn(b) => Some(Command([s.spawnAgentPath, b, s.agentCmd], Some(s.repoRoot), Ctx(Spawn)["branch" := b]))
    case RunRemove(b) => Some(Command([s.spawnAgentPath, "remove", b], Some(s.repoRoot), Ctx(Remove)["branch" := b]))
    case CloseSelf => None
  }

  /** Every command comes back to the handler of its own kind. */
  lemma RoutesBack(s: State, e: Effect)
    requires !e.CloseSelf?
    ensures Route(CommandFor(s, e).value.context) == KindOf(e)
  {
    var ctx := CommandFor(s, e).value.context;
    var k := KindOf(e).value;
    var r := Route(ctx);
    assert r.Some? by {
      match k
      case Toplevel =>
      case ListWorktrees =>
      case Branches =>
      case Spawn =>
      case Remove =>
    }
    CmdTypesDistinct(r.value, k);
  }
}

=== FILE: invariants.dfy ===
/** Properties of the whole plugin across events: the cursor invariant and
    where it lapses, the mode graph, the routing of command results back to
    their handlers, and what a run of events can and cannot change. */
module Invariants {
  import opened Wrappers
  import opened Text
  import opened Parsers
  import opened PluginState
  import opened KeyHandlers
  import opened ResultHandlers
  import opened Commands
  import opened Plugin

  /** The length of the list the cursor points into: the filtered branches
      in the branch picker, the worktrees on every other screen. */
  function ActiveLen(s: State): nat {
    if s.mode == SelectBranch then |s.filteredBranches| else |s.worktrees|
  }

  /** The cursor is on a row of the active list, or the list is empty. */
  predicate CursorInRange(s: State) {
    ActiveLen(s) == 0 || s.selectedIndex < ActiveLen(s)
  }

  /** Every event keeps the cursor in range, except one that leaves the
      branch picker for the worktree list: Enter in the picker keeps the
      branch cursor, and a toplevel or removal result arriving there switches
      screens without touching it. */
  lemma UpdateKeepsCursorInRange(s: State, ev: Event, home: string)
    requires CursorInRange(s)
    ensures CursorInRange(Update(s, ev, home).next)
         || (s.mode == SelectBranch && Update(s, ev, home).next.mode == BrowseWorktrees)
  {
    match ev
    case KeyPress(key) =>
      KeyKeepsCursorInRange(s, key);
    case CommandResult(exitCode, stdout, stderr, context) =>
      ResultKeepsCursorInRange(s, exitCode, stdout, stderr, context, home);
    case _ =>
  }

  lemma KeyKeepsCursorInRange(s: State, key: Key)
    requires CursorInRange(s)
    ensures CursorInRange(HandleKey(s, key).next)
         || (s.mode == SelectBranch && HandleKey(s, key).next.mode == BrowseWorktrees)
  {
    if s.mode == BrowseWorktrees && key.HasNoModifiers() && key.bare == Char('n') {
      assert HandleKey(s, key).next.selectedIndex == 0;
    }
  }

  lemma ResultKeepsCursorInRange(s: State, exitCode: Option<int>, stdout: string, stderr: string,
                                 context: map<string, string>, home: string)
    requires CursorInRange(s)
    ensures var t := HandleResult(s, exitCode, stdout, stderr, context, home).next;
      CursorInRange(t) || (s.mode == SelectBranch && t.mode == BrowseWorktrees)
  {
    if Route(context) == Some(ListWorktrees) {
      assert HandleResult(s, exitCode, stdout, stderr, context, home).next.selectedIndex <= s.selectedIndex;
    }
  }

  /** The lapse is real: picking the second of two branches while one
      worktree is listed lands on the worktree list with the cursor past its
      end. */
  lemma StaleCursorAfterPickerEnter(s: State, w: Worktree, a: string, b: string)
    requires s.mode == SelectBranch && s.worktrees == [w] && s.filteredBranches == [a, b] && s.selectedIndex == 1
    ensures CursorInRange(s)
    ensures Update(s, KeyPress(Key(Enter, {})), "").next.mode == BrowseWorktrees
    ensures Update(s, KeyPress(Key(Enter, {})), "").effects == [RunSpawn(b)]
    ensures !CursorInRange(Update(s, KeyPress(Key(Enter, {})), "").next)
  {
  }

  /** A worktree listing puts the cursor back in range on every screen but
      the branch picker, whatever it was before. */
  lemma ListingRestoresCursor(s: State, exitCode: Option<int>, stdout: string, stderr: string,
                              context: map<string, string>, home: string)
    requires s.mode != SelectBranch && Route(context) == Some(ListWorktrees)
    ensures CursorInRange(Update(s, CommandResult(exitCode, stdout, stderr, context), home).next)
  {
  }

  /** Is the event a successful `git rev-parse --show-toplevel` result? */
  predicate IsToplevelSuccess(ev: Event) {
    ev.CommandResult? && Route(ev.context) == Some(Toplevel) && Succeeded(ev.exitCode)
  }

  /** Is the event a removal result? */
  predicate IsRemoveResult(ev: Event) {
    ev.CommandResult? && Route(ev.context) == Some(Remove)
  }

  /** The mode graph: the worktree list opens the three sub-screens by key;
      every other change of mode leads to the worktree list, and only keys,
      a successful toplevel result or a removal result change the mode. */
  lemma ModeGraph(s: State, ev: Event, home: string)
    ensures var m := Update(s, ev, home).next.mode;
      m != s.mode ==> || (m == BrowseWorktrees && (ev.KeyPress? || IsToplevelSuccess(ev) || IsRemoveResult(ev)))
                      || (s.mode == BrowseWorktrees && ev.KeyPress? && m in {SelectBranch, InputBranch, Confirming})
    ensures var m := Update(s, ev, home).next.mode;
      s.mode == Loading && m != Loading ==> m == BrowseWorktrees && (IsToplevelSuccess(ev) || IsRemoveResult(ev))
  {
  }

  /** Pressing `y` in the confirmation requests the removal but stays in
      `Confirming`; only the removal result, whatever its exit code, brings
      back the worktree list, and it asks for a fresh listing. */
  lemma RemovalRoundTrip(s: State, exitCode: Option<int>, stdout: string, stderr: string, home: string)
    requires s.mode == Confirming && s.selectedIndex < |s.worktrees|
    ensures var r := Update(s, KeyPress(Key(Char('y'), {})), home);
      && r.next.mode == Confirming
      && r.effects == [RunRemove(s.worktrees[s.selectedIndex].branch)]
      && var result := CommandResult(exitCode, stdout, stderr, CommandFor(r.next, r.effects[0]).value.context);
         var r2 := Update(r.next, result, home);
         && r2.next.mode == BrowseWorktrees
         && r2.effects == [RunListWorktrees]
         && (Succeeded(exitCode) ==> r2.next.statusMessage == RemovedMessage(s.worktrees[s.selectedIndex].branch))
  {
    var r := Update(s, KeyPress(Key(Char('y'), {})), home);
    RoutesBack(r.next, r.effects[0]);
  }

  /** The result of a spawn comes back to the spawn handler with the branch
      it was fired for; the screen stays as it is and only the worktree
      listing is requested again. */
  lemma SpawnRoundTrip(s: State, branch: string, exitCode: Option<int>, stdout: string, stderr: string, home: string)
    ensures var ctx := CommandFor(s, RunSpawn(branch)).value.context;
      var r := Update(s, CommandResult(exitCode, stdout, stderr, ctx), home);
      && r.next.mode == s.mode
      && r.effects == [RunListWorktrees]
      && r.next.worktrees == s.worktrees
      && (Succeeded(exitCode) ==> r.next.statusMessage == SpawnedMessage(branch) && !r.next.statusIsError)
      && (!Succeeded(exitCode) ==> r.next.statusIsError)
  {
    RoutesBack(s, RunSpawn(branch));
  }

  /** Only granted permission asks for the repository root: no key and no
      command result fires `git rev-parse --show-toplevel` again. */
  lemma OnlyPermissionAsksForRoot(s: State, ev: Event, home: string)
    ensures RunToplevel in Update(s, ev, home).effects ==> ev.PermissionGranted?
  {
    match ev
    case KeyPress(key) =>
      KeysNeverAskForRoot(s, key);
    case CommandResult(exitCode, stdout, stderr, context) =>
      ResultsNeverAskForRoot(s, exitCode, stdout, stderr, context, home);
    case _ =>
  }

  lemma KeysNeverAskForRoot(s: State, key: Key)
    ensures RunToplevel !in HandleKey(s, key).effects
  {
    match s.mode
    case BrowseWorktrees =>
      assert forall e :: e in HandleKeyBrowse(s, key).effects ==> !e.RunToplevel?;
    case _ =>
  }

  lemma ResultsNeverAskForRoot(s: State, exitCode: Option<int>, stdout: string, stderr: string,
                               context: map<string, string>, home: string)
    ensures RunToplevel !in HandleResult(s, exitCode, stdout, stderr, context, home).effects
  {
    if Route(context).Some? {
      HandlersNeverAskForRoot(Route(context).value, s, exitCode, stdout, stderr, context, home);
    }
  }

  lemma HandlersNeverAskForRoot(kind: CommandKind, s: State, exitCode: Option<int>, stdout: string, stderr: string,
                                context: map<string, string>, home: string)
    ensures RunToplevel !in Dispatch(kind, s, exitCode, stdout, stderr, context, home).effects
  {
    match kind
    case Toplevel =>
    case ListWorktrees =>
      assert HandleListWorktrees(s, stdout, home).effects == [];
    case Branches =>
      assert HandleGitBranches(s, stdout).effects == [];
    case Spawn =>
      assert HandleSpawnResult(s, exitCode, stderr, context).effects == [RunListWorktrees];
    case Remove =>
      assert HandleRemoveResult(s, exitCode, stderr, context).effects == [RunListWorktrees];
  }

  /** The configured commands never change, whatever happens. */
  lemma {:induction false} RunKeepsConfig(s: State, evs: seq<Event>, home: string)
    ensures Run(s, evs, home).next.agentCmd == s.agentCmd
    ensures Run(s, evs, home).next.spawnAgentPath == s.spawnAgentPath
    decreases |evs|
  {
    if evs != [] {
      RunKeepsConfig(Update(s, evs[0], home).next, evs[1..], home);
    }
  }

  /** Only a successful toplevel result changes which repository the plugin
      works on. */
  lemma RepoChangesOnlyOnToplevel(s: State, ev: Event, home: string)
    requires !IsToplevelSuccess(ev)
    ensures Update(s, ev, home).next.repoRoot == s.repoRoot
    ensures Update(s, ev, home).next.repoName == s.repoName
  {
  }

  lemma {:induction false} RunKeepsRepo(s: State, evs: seq<Event>, home: string)
    requires forall i :: 0 <= i < |evs| ==> !IsToplevelSuccess(evs[i])
    ensures Run(s, evs, home).next.repoRoot == s.repoRoot
    ensures Run(s, evs, home).next.repoName == s.repoName
    decreases |evs|
  {
    if evs != [] {
      RepoChangesOnlyOnToplevel(s, evs[0], home);
      RunKeepsRepo(Update(s, evs[0], home).next, evs[1..], home);
    }
  }

  /** While loading, no sequence of keys has any effect at all. */
  lemma {:induction false} LoadingIgnoresKeys(s: State, evs: seq<Event>, home: string)
    requires s.mode == Loading
    requires forall i :: 0 <= i < |evs| ==> evs[i].KeyPress?
    ensures Run(s, evs, home) == Transition(s, [])
    decreases |evs|
  {
    if evs != [] {
      LoadingIgnoresKeys(s, evs[1..], home);
    }
  }

  /** A result tagged as toplevel reaches `HandleGitToplevel`. */
  lemma ToplevelDispatch(s: State, exitCode: Option<int>, stdout: string, stderr: string,
                         context: map<string, string>, home: string)
    requires Route(context) == Some(Toplevel)
    ensures var t := HandleGitToplevel(s, exitCode, stdout, stderr);
      Update(s, CommandResult(exitCode, stdout, stderr, context), home) == Reaction(t.next, t.effects, true)
  {
    assert HandleResult(s, exitCode, stdout, stderr, context, home) == HandleGitToplevel(s, exitCode, stdout, stderr);
  }

  /** A key press reaches the handler of the current mode, and the host is
      asked to render whatever that handler did. */
  lemma KeyDispatch(s: State, key: Key, home: string)
    ensures var r := Update(s, KeyPress(key), home);
      && (s.mode == BrowseWorktrees ==> r == Reaction(HandleKeyBrowse(s, key).next, HandleKeyBrowse(s, key).effects, true))
      && (s.mode == SelectBranch ==> r == Reaction(HandleKeySelectBranch(s, key).next, HandleKeySelectBranch(s, key).effects, true))
      && (s.mode == InputBranch ==> r == Reaction(HandleKeyInputBranch(s, key).next, HandleKeyInputBranch(s, key).effects, true))
      && (s.mode == Confirming ==> r == Reaction(HandleKeyConfirming(s, key).next, HandleKeyConfirming(s, key).effects, true))
      && (s.mode == Loading ==> r == Reaction(s, [], true))
  {
  }

  /** A result tagged as a listing, branch, spawn or removal result reaches
      the handler of that kind (the toplevel case is `ToplevelDispatch`). */
  lemma ResultDispatch(s: State, exitCode: Option<int>, stdout: string, stderr: string,
                       context: map<string, string>, home: string)
    ensures var r := Update(s, CommandResult(exitCode, stdout, stderr, context), home);
      && (Route(context) == Some(ListWorktrees)
          ==> r == Reaction(HandleListWorktrees(s, stdout, home).next, [], true))
      && (Route(context) == Some(Branches)
          ==> r == Reaction(HandleGitBranches(s, stdout).next, [], true))
      && (Route(context) == Some(Spawn)
          ==> r == Reaction(HandleSpawnResult(s, exitCode, stderr, context).next,
                            HandleSpawnResult(s, exitCode, stderr, context).effects, true))
      && (Route(context) == Some(Remove)
          ==> r == Reaction(HandleRemoveResult(s, exitCode, stderr, context).next,
                            HandleRemoveResult(s, exitCode, stderr, context).effects, true))
      && (Route(context).None? ==> r == Reaction(s, [], true))
  {
  }

  /** Two events in a row. */
  lemma RunTwo(s: State, e1: Event, e2: Event, home: string)
    ensures var r1 := Update(s, e1, home);
      var r2 := Update(r1.next, e2, home);
      Run(s, [e1, e2], home) == Transition(r2.next, r1.effects + r2.effects)
  {
    var r1 := Update(s, e1, home);
    var r2 := Update(r1.next, e2, home);
    var evs := [e1, e2];
    assert evs[1..] == [e2];
    assert Run(r1.next, [e2], home) == Transition(r2.next, r2.effects) by {
      assert [e2][1..] == [];
      assert r2.effects + [] == r2.effects;
    }
  }

  /** The answer to the toplevel command, when it names `dir/name`. */
  lemma ToplevelAnswer(s: State, home: string, dir: string, name: string)
    requires name != [] && '/' !in name && !IsWhitespace(name[|name| - 1])
    requires dir == [] || !IsWhitespace(dir[0])
    ensures var ctx := CommandFor(s, RunToplevel).value.context;
      var r := Update(s, CommandResult(Some(0), dir + "/" + name + "\n", [], ctx), home);
      && r.effects == [RunListWorktrees, RunBranches]
      && r.next.mode == BrowseWorktrees
      && r.next.repoRoot == dir + "/" + name
      && r.next.repoName == name
  {
    var ctx := CommandFor(s, RunToplevel).value.context;
    RoutesBack(s, RunToplevel);
    ToplevelDispatch(s, Some(0), dir + "/" + name + "\n", [], ctx, home);
    ToplevelNamesRepository(s, dir, name);
  }

  /** The plugin's start: granted permission asks for the repository root,
      and a successful answer opens the worktree list and asks for both
      listings (from the loaded state or any other). */
  lemma StartUp(s: State, home: string, dir: string, name: string)
    requires name != [] && '/' !in name && !IsWhitespace(name[|name| - 1])
    requires dir == [] || !IsWhitespace(dir[0])
    ensures var ctx := CommandFor(s, RunToplevel).value.context;
      var t := Run(s, [PermissionGranted, CommandResult(Some(0), dir + "/" + name + "\n", [], ctx)], home);
      && t.effects == [RunToplevel, RunListWorktrees, RunBranches]
      && t.next.mode == BrowseWorktrees
      && t.next.repoRoot == dir + "/" + name
      && t.next.repoName == name
  {
    var ctx := CommandFor(s, RunToplevel).value.context;
    var answer := CommandResult(Some(0), dir + "/" + name + "\n", [], ctx);
    ToplevelAnswer(s, home, dir, name);
    RunTwo(s, PermissionGranted, answer, home);
  }
}

=== FILE: keys.dfy ===
/** The four per-mode key handlers of plugin/src/main.rs
    (`handle_key_browse`, `handle_key_select_branch`,
    `handle_key_input_branch`, `handle_key_confirming`) as pure functions
    from a state and a key to the next state and the requested effects. */
module KeyHandlers {
  import opened Text
  import opened Parsers
  import opened PluginState

  /** The cursor one row down, wrapping from the last row to the first:
      `(i + 1) % len`. */
  function Next(i: nat, len: nat): (j: nat)
    requires len > 0
    ensures j < len
    ensures i < len ==> (j == 0 <==> i == len - 1)
    ensures i < len - 1 ==> j == i + 1
  {
    (i + 1) % len
  }

  /** The cursor one row up, wrapping from the first row to the last. From
      a row in range it undoes `Next`. */
  function Prev(i: nat, len: nat): (j: nat)
    requires len > 0
    ensures i < len ==> j < len && Next(j, len) == i
  {
    if i == 0 then len - 1 else i - 1
  }

  /** `Prev` undoes `Next` as well: on the rows `0..len` the two moves are
      inverse bijections. */
  lemma PrevUndoesNext(i: nat, len: nat)
    requires len > 0 && i < len
    ensures Prev(Next(i, len), len) == i
  {
    if i < len - 1 {
      assert Next(i, len) == i + 1;
    } else {
      assert Next(i, len) == 0;
    }
  }

  /** The fields no key handler touches: the repository, the two lists read
      from git, and the configuration. */
  predicate KeepsRepoData(s: State, t: State) {
    && t.repoRoot == s.repoRoot
    && t.repoName == s.repoName
    && t.worktrees == s.worktrees
    && t.branches == s.branches
    && t.agentCmd == s.agentCmd
    && t.spawnAgentPath == s.spawnAgentPath
  }

  /** `j` or Down. */
  predicate IsDownKey(k: BareKey) {
    k == Char('j') || k == Down
  }

  /** `k` or Up. */
  predicate IsUpKey(k: BareKey) {
    k == Char('k') || k == Up
  }

  /** The keys that move over a list or act on its selected row. */
  predicate IsListKey(k: BareKey) {
    IsDownKey(k) || IsUpKey(k) || k == Enter
  }

  /** The keys the worktree list has a binding for. */
  predicate IsBrowseKey(k: BareKey) {
    IsListKey(k) || k == Char('n') || k == Char('i') || k == Char('d') || k == Char('r') || k == Char('q') || k == Esc
  }

  /** The cursor after a `j`/`k` key over a list of `len` rows; an empty
      list leaves it alone. */
  function Move(i: nat, len: nat, down: bool): (j: nat)
    ensures len == 0 ==> j == i
    ensures len > 0 ==> j == if down then Next(i, len) else Prev(i, len)
    ensures i < len ==> j < len
  {
    if len == 0 then i else if down then Next(i, len) else Prev(i, len)
  }

  // ---------------------------------------------------------------------
  // BrowseWorktrees

  /** `handle_key_browse`. Keys with any modifier are ignored; `j`/`k` move
      the cursor with wrap-around; Enter spawns an agent on the selected
      worktree's branch; `n` opens the branch picker on a copy of all
      branches; `i` opens the branch input with an empty buffer; `d` asks to
      confirm removal; `r` re-lists worktrees and branches; `q`/Esc closes
      the plugin. */
  function HandleKeyBrowse(s: State, key: Key): (t: Transition)
    ensures KeepsRepoData(s, t.next)
    ensures !key.HasNoModifiers() ==> t == Transition(s, [])
    // on an empty worktree list `j`, `k`, Enter and `d` change nothing
    ensures s.worktrees == [] && (IsListKey(key.bare) || key.bare == Char('d')) ==> t == Transition(s, [])
    // moving over a non-empty list changes only the cursor
    ensures key.HasNoModifiers() && IsDownKey(key.bare) && s.worktrees != []
         ==> t == Transition(s.(selectedIndex := Next(s.selectedIndex, |s.worktrees|)), [])
    ensures key.HasNoModifiers() && IsUpKey(key.bare) && s.worktrees != []
         ==> t == Transition(s.(selectedIndex := Prev(s.selectedIndex, |s.worktrees|)), [])
    // a spawn names the branch under the cursor and keeps the mode
    ensures forall e :: e in t.effects && e.RunSpawn? ==> (
          && t.effects == [e]
          && s.selectedIndex < |s.worktrees|
          && e.branch == s.worktrees[s.selectedIndex].branch
          && t.next == s.(statusMessage := SpawningMessage(e.branch), statusIsError := false)
        )
    ensures forall e :: e in t.effects ==> !e.RunRemove? && !e.RunToplevel?
    // the mode changes only to one of the three sub-screens, with no effect
    ensures t.next.mode != s.mode ==> t.effects == [] && t.next.mode in {SelectBranch, InputBranch, Confirming}
    ensures t.next.mode == Confirming && s.mode != Confirming
         ==> s.worktrees != [] && t.next == s.(mode := Confirming)
    ensures t.next.mode == SelectBranch && s.mode != SelectBranch
         ==> t.next == s.(mode := SelectBranch, filteredBranches := s.branches, selectedIndex := 0)
    ensures t.next.mode == InputBranch && s.mode != InputBranch
         ==> t.next == s.(mode := InputBranch, inputBuffer := [])
    ensures CloseSelf in t.effects ==> t == Transition(s, [CloseSelf])
    ensures RunListWorktrees in t.effects
        ==> t == Transition(s.(statusMessage := RefreshedMessage, statusIsError := false), [RunListWorktrees, RunBranches])
    // what each binding does, key by key
    ensures key.HasNoModifiers() && key.bare == Enter && s.selectedIndex < |s.worktrees|
         ==> t == Transition(s.(statusMessage := SpawningMessage(s.worktrees[s.selectedIndex].branch), statusIsError := false),
                             [RunSpawn(s.worktrees[s.selectedIndex].branch)])
    ensures key.bare == Enter && s.selectedIndex >= |s.worktrees| ==> t == Transition(s, [])
    ensures key.HasNoModifiers() && key.bare == Char('n')
         ==> t == Transition(s.(filteredBranches := s.branches, mode := SelectBranch, selectedIndex := 0), [])
    ensures key.HasNoModifiers() && key.bare == Char('i') ==> t == Transition(s.(mode := InputBranch, inputBuffer := []), [])
    ensures key.HasNoModifiers() && key.bare == Char('d') && s.worktrees != [] ==> t == Transition(s.(mode := Confirming), [])
    ensures key.HasNoModifiers() && key.bare == Char('r')
         ==> t == Transition(s.(statusMessage := RefreshedMessage, statusIsError := false), [RunListWorktrees, RunBranches])
    ensures key.HasNoModifiers() && (key.bare == Char('q') || key.bare == Esc) ==> t == Transition(s, [CloseSelf])
    // every other key is ignored
    ensures !IsBrowseKey(key.bare) ==> t == Transition(s, [])
  {
    if !key.HasNoModifiers() then Transition(s, [])
    else
      match key.bare
      case Char(c) =>
        if c == 'j' || c == 'k' then
          Transition(s.(selectedIndex := Move(s.selectedIndex, |s.worktrees|, c == 'j')), [])
        else if c == 'n' then
          Transition(s.(filteredBranches := s.branches, mode := SelectBranch, selectedIndex := 0), [])
        else if c == 'i' then Transition(s.(mode := InputBranch, inputBuffer := []), [])
        else if c == 'd' then
          if s.worktrees == [] then Transition(s, []) else Transition(s.(mode := Confirming), [])
        else if c == 'r' then
          Transition(s.(statusMessage := RefreshedMessage, statusIsError := false), [RunListWorktrees, RunBranches])
        else if c == 'q' then Transition(s, [CloseSelf])
        else Transition(s, [])
      case Down => Transition(s.(selectedIndex := Move(s.selectedIndex, |s.worktrees|, true)), [])
      case Up => Transition(s.(selectedIndex := Move(s.selectedIndex, |s.worktrees|, false)), [])
      case Enter =>
        if s.selectedIndex < |s.worktrees| then
          var branch := s.worktrees[s.selectedIndex].branch;
          Transition(s.(statusMessage := SpawningMessage(branch), statusIsError := false), [RunSpawn(branch)])
        else Transition(s, [])
      case Esc => Transition(s, [CloseSelf])
      case _ => Transition(s, [])
  }

  // ---------------------------------------------------------------------
  // SelectBranch

  /** `handle_key_select_branch`. Keys with any modifier are ignored; `j`/`k`
      move over the filtered branches with wrap-around; Enter spawns on the
      selected branch and returns to the worktree list WITHOUT resetting the
      cursor; Esc returns to the worktree list with the cursor at 0. */
  function HandleKeySelectBranch(s: State, key: Key): (t: Transition)
    ensures KeepsRepoData(s, t.next)
    ensures t.next.filteredBranches == s.filteredBranches && t.next.inputBuffer == s.inputBuffer
    ensures !key.HasNoModifiers() ==> t == Transition(s, [])
    // on an empty filtered list `j`, `k` and Enter change nothing
    ensures s.filteredBranches == [] && IsListKey(key.bare) ==> t == Transition(s, [])
    ensures key.HasNoModifiers() && IsDownKey(key.bare) && s.filteredBranches != []
         ==> t == Transition(s.(selectedIndex := Next(s.selectedIndex, |s.filteredBranches|)), [])
    ensures key.HasNoModifiers() && IsUpKey(key.bare) && s.filteredBranches != []
         ==> t == Transition(s.(selectedIndex := Prev(s.selectedIndex, |s.filteredBranches|)), [])
    // a spawn names the branch under the cursor and leaves for the worktree list
    ensures forall e :: e in t.effects ==> (
          && e.RunSpawn? && t.effects == [e]
          && s.selectedIndex < |s.filteredBranches|
          && e.branch == s.filteredBranches[s.selectedIndex]
          && t.next == s.(mode := BrowseWorktrees, statusMessage := SpawningMessage(e.branch), statusIsError := false)
        )
    ensures t.next.mode != s.mode && t.effects == []
         ==> t.next.mode == BrowseWorktrees && key.bare == Esc && t.next == s.(mode := BrowseWorktrees, selectedIndex := 0)
    // what each binding does, key by key
    ensures key.HasNoModifiers() && key.bare == Enter && s.selectedIndex < |s.filteredBranches|
         ==> t == Transition(s.(mode := BrowseWorktrees, statusMessage := SpawningMessage(s.filteredBranches[s.selectedIndex]),
                                statusIsError := false),
                             [RunSpawn(s.filteredBranches[s.selectedIndex])])
    ensures key.bare == Enter && s.selectedIndex >= |s.filteredBranches| ==> t == Transition(s, [])
    ensures key.HasNoModifiers() && key.bare == Esc ==> t == Transition(s.(mode := BrowseWorktrees, selectedIndex := 0), [])
    // every other key is ignored
    ensures !IsListKey(key.bare) && key.bare != Esc ==> t == Transition(s, [])
  {
    if !key.HasNoModifiers() then Transition(s, [])
    else
      var len := |s.filteredBranches|;
      match key.bare
      case Char(c) =>
        if c == 'j' || c == 'k' then Transition(s.(selectedIndex := Move(s.selectedIndex, len, c == 'j')), [])
        else Transition(s, [])
      case Down => Transition(s.(selectedIndex := Move(s.selectedIndex, len, true)), [])
      case Up => Transition(s.(selectedIndex := Move(s.selectedIndex, len, false)), [])
      case Enter =>
        if s.selectedIndex < len then
          var branch := s.filteredBranches[s.selectedIndex];
          Transition(s.(statusMessage := SpawningMessage(branch), statusIsError := false, mode := BrowseWorktrees),
                     [RunSpawn(branch)])
        else Transition(s, [])
      case Esc => Transition(s.(mode := BrowseWorktrees, selectedIndex := 0), [])
      case _ => Transition(s, [])
  }

  // ---------------------------------------------------------------------
  // InputBranch

  /** Rust's `String::pop` for the buffer: drops the last character, if any. */
  function PopLast(buf: string): (r: string)
    ensures buf == [] ==> r == []
    ensures buf != [] ==> r + [buf[|buf| - 1]] == buf
  {
    if buf == [] then [] else buf[..|buf| - 1]
  }

  /** `handle_key_input_branch`. Enter, Esc and Backspace act only without
      modifiers; a character is typed without modifiers or with Shift alone.
      Enter spawns on the trimmed buffer unless it is empty; the buffer itself
      is kept as it was. */
  function HandleKeyInputBranch(s: State, key: Key): (t: Transition)
    ensures KeepsRepoData(s, t.next)
    ensures t.next.filteredBranches == s.filteredBranches
    // typing: only the buffer changes
    ensures key.bare.Char? && (key.HasNoModifiers() || key.IsShiftOnly())
         ==> t == Transition(s.(inputBuffer := s.inputBuffer + [key.bare.c]), [])
    ensures key.bare == Backspace && key.HasNoModifiers()
         ==> t == Transition(s.(inputBuffer := PopLast(s.inputBuffer)), [])
    // Enter on a blank buffer does nothing at all
    ensures key.bare == Enter && Trim(s.inputBuffer) == [] ==> t == Transition(s, [])
    // Enter on a non-blank buffer spawns on its trim
    ensures key.bare == Enter && key.HasNoModifiers() && Trim(s.inputBuffer) != []
         ==> && t.effects == [RunSpawn(Trim(s.inputBuffer))]
             && t.next == s.(mode := BrowseWorktrees, statusMessage := SpawningMessage(Trim(s.inputBuffer)), statusIsError := false)
    ensures forall e :: e in t.effects ==> e.RunSpawn? && e.branch != [] && NoEdgeWhitespace(e.branch)
    ensures t.next.mode != s.mode ==> t.next.mode == BrowseWorktrees
    ensures !key.bare.Char? && !key.HasNoModifiers() ==> t == Transition(s, [])
    ensures key.bare == Esc && key.HasNoModifiers() ==> t == Transition(s.(mode := BrowseWorktrees, selectedIndex := 0), [])
    // every other key is ignored: a character under other modifiers, and the
    // keys without a binding here
    ensures key.bare.Char? && !key.HasNoModifiers() && !key.IsShiftOnly() ==> t == Transition(s, [])
    ensures !key.bare.Char? && key.bare != Enter && key.bare != Esc && key.bare != Backspace ==> t == Transition(s, [])
  {
    var noMod := key.HasNoModifiers();
    match key.bare
    case Enter =>
      if noMod then
        var branch := Trim(s.inputBuffer);
        if branch != [] then
          Transition(s.(statusMessage := SpawningMessage(branch), statusIsError := false, mode := BrowseWorktrees),
                     [RunSpawn(branch)])
        else Transition(s, [])
      else Transition(s, [])
    case Esc =>
      if noMod then Transition(s.(mode := BrowseWorktrees, selectedIndex := 0), []) else Transition(s, [])
    case Backspace =>
      if noMod then Transition(s.(inputBuffer := PopLast(s.inputBuffer)), []) else Transition(s, [])
    case Char(c) =>
      if noMod || key.IsShiftOnly() then Transition(s.(inputBuffer := s.inputBuffer + [c]), []) else Transition(s, [])
    case _ => Transition(s, [])
  }

  // ---------------------------------------------------------------------
  // Confirming

  /** `handle_key_confirming`. Keys with any modifier are ignored; `y`
      requests removal of the selected worktree's branch and stays in
      `Confirming` (only the removal result leaves it); `n`/Esc goes back to
      the worktree list; every other key is ignored. */
  function HandleKeyConfirming(s: State, key: Key): (t: Transition)
    ensures KeepsRepoData(s, t.next)
    ensures t.next.selectedIndex == s.selectedIndex && t.next.filteredBranches == s.filteredBranches
    ensures t.next.inputBuffer == s.inputBuffer
    ensures !key.HasNoModifiers() ==> t == Transition(s, [])
    ensures forall e :: e in t.effects ==> (
          && e.RunRemove? && t.effects == [e]
          && s.selectedIndex < |s.worktrees|
          && e.branch == s.worktrees[s.selectedIndex].branch
          && t.next == s.(statusMessage := RemovingMessage(e.branch), statusIsError := false)
        )
    ensures key.HasNoModifiers() && key.bare == Char('y') && s.selectedIndex < |s.worktrees|
         ==> t == Transition(s.(statusMessage := RemovingMessage(s.worktrees[s.selectedIndex].branch), statusIsError := false),
                             [RunRemove(s.worktrees[s.selectedIndex].branch)])
    ensures key.bare == Char('y') && s.selectedIndex >= |s.worktrees| ==> t == Transition(s, [])
    // every other key is ignored
    ensures key.bare != Char('y') && key.bare != Char('n') && key.bare != Esc ==> t == Transition(s, [])
    ensures t.next.mode != s.mode ==> t == Transition(s.(mode := BrowseWorktrees), [])
    ensures key.HasNoModifiers() && (key.bare == Char('n') || key.bare == Esc)
         ==> t == Transition(s.(mode := BrowseWorktrees), [])
  {
    if !key.HasNoModifiers() then Transition(s, [])
    else
      match key.bare
      case Char(c) =>
        if c == 'y' then
          if s.selectedIndex < |s.worktrees| then
            var branch := s.worktrees[s.selectedIndex].branch;
            Transition(s.(statusMessage := RemovingMessage(branch), statusIsError := false), [RunRemove(branch)])
          else Transition(s, [])
        else if c == 'n' then Transition(s.(mode := BrowseWorktrees), [])
        else Transition(s, [])
      case Esc => Transition(s.(mode := BrowseWorktrees), [])
      case _ => Transition(s, [])
  }

  // ---------------------------------------------------------------------
  // Several keys in a row

  const DownKey: Key := Key(Down, {})
  const BackspaceKey: Key := Key(Backspace, {})

  /** The cursor after `n` Down moves over `len` rows. */
  function NextN(i: nat, len: nat, n: nat): (j: nat)
    requires len > 0
    ensures i < len ==> j < len
    decreases n
  {
    if n == 0 then i else NextN(Next(i, len), len, n - 1)
  }

  lemma {:induction false} NextNSplit(i: nat, len: nat, a: nat, b: nat)
    requires len > 0
    ensures NextN(i, len, a + b) == NextN(NextN(i, len, a), len, b)
    decreases a
  {
    if a > 0 {
      NextNSplit(Next(i, len), len, a - 1, b);
    }
  }

  lemma {:induction false} NextNCounts(i: nat, len: nat, n: nat)
    requires len > 0 && i + n < len
    ensures NextN(i, len, n) == i + n
    decreases n
  {
    if n > 0 {
      NextNCounts(i + 1, len, n - 1);
    }
  }

  /** `len` Down moves bring the cursor back to where it started. */
  lemma NextNCycle(i: nat, len: nat)
    requires len > 0 && i < len
    ensures NextN(i, len, len) == i
  {
    var toLast := len - 1 - i;
    NextNSplit(i, len, toLast, 1 + i);
    NextNCounts(i, len, toLast);
    NextNSplit(len - 1, len, 1, i);
    NextNCounts(0, len, i);
  }

  /** The state after pressing `key` `n` times in BrowseWorktrees. */
  function PressBrowse(s: State, key: Key, n: nat): (r: State)
    ensures KeepsRepoData(s, r)
    decreases n
  {
    if n == 0 then s else PressBrowse(HandleKeyBrowse(s, key).next, key, n - 1)
  }

  lemma {:induction false} PressDownMovesCursor(s: State, n: nat)
    requires s.worktrees != []
    ensures PressBrowse(s, DownKey, n) == s.(selectedIndex := NextN(s.selectedIndex, |s.worktrees|, n))
    decreases n
  {
    if n > 0 {
      var s1 := HandleKeyBrowse(s, DownKey).next;
      PressDownMovesCursor(s1, n - 1);
    }
  }

  /** Pressing Down once per worktree returns to the very same state: the
      cursor wraps around exactly once and nothing else changes. */
  lemma BrowseDownCycles(s: State)
    requires s.worktrees != [] && s.selectedIndex < |s.worktrees|
    ensures PressBrowse(s, DownKey, |s.worktrees|) == s
  {
    PressDownMovesCursor(s, |s.worktrees|);
    NextNCycle(s.selectedIndex, |s.worktrees|);
  }

  /** The state after typing `text` in InputBranch, one plain key per
      character. */
  function TypeText(s: State, text: string): State
    decreases |text|
  {
    if text == [] then s else TypeText(HandleKeyInputBranch(s, Key(Char(text[0]), {})).next, text[1..])
  }

  /** Typing appends the text to the buffer and changes nothing else. */
  lemma {:induction false} TypeTextAppends(s: State, text: string)
    ensures TypeText(s, text) == s.(inputBuffer := s.inputBuffer + text)
    decreases |text|
  {
    if text != [] {
      var s1 := HandleKeyInputBranch(s, Key(Char(text[0]), {})).next;
      assert s1 == s.(inputBuffer := s.inputBuffer + [text[0]]);
      TypeTextAppends(s1, text[1..]);
      assert s.inputBuffer + [text[0]] + text[1..] == s.inputBuffer + text;
    }
  }

  /** The state after `n` Backspace keys in InputBranch. */
  function EraseN(s: State, n: nat): State
    decreases n
  {
    if n == 0 then s else EraseN(HandleKeyInputBranch(s, BackspaceKey).next, n - 1)
  }

  lemma {:induction false} EraseNDropsSuffix(s: State, base: string, text: string)
    requires s.inputBuffer == base + text
    ensures EraseN(s, |text|) == s.(inputBuffer := base)
    decreases |text|
  {
    if text != [] {
      var init := text[..|text| - 1];
      var s1 := HandleKeyInputBranch(s, BackspaceKey).next;
      assert (base + text)[..|base + text| - 1] == base + init;
      EraseNDropsSuffix(s1, base, init);
    } else {
      assert base + text == base;
    }
  }

  /** Typing a text and then pressing Backspace once per character restores
      the buffer and the rest of the state. */
  lemma TypeThenEraseRestores(s: State, text: string)
    ensures EraseN(TypeText(s, text), |text|) == s
  {
    TypeTextAppends(s, text);
    EraseNDropsSuffix(TypeText(s, text), s.inputBuffer, text);
  }
}

=== FILE: parsers.dfy ===
/** The two parsers of command output in plugin/src/main.rs:
    `parse_worktrees` over `git worktree list --porcelain` and
    `parse_branches` over `git branch --format=%(refname:short)`. */
module Parsers {
  import opened Text

  /** One worktree under the plugin's managed directory. */
  datatype Worktree = Worktree(path: string, branch: string)

  const WorktreeMarker: string := "worktree "
  const BranchMarker: string := "branch "
  const HeadsPrefix: string := "refs/heads/"

  /** A branch reference with one leading "refs/heads/" removed, if present. */
  function ShortBranch(ref: string): (b: string)
    ensures HeadsPrefix <= ref ==> HeadsPrefix + b == ref
    ensures !(HeadsPrefix <= ref) ==> b == ref
  {
    StripPrefix(ref, HeadsPrefix).GetOr(ref)
  }

  /** What one line emits given the current path: an entry for a `branch `
      line when the current path starts with `prefix`, nothing otherwise. */
  function LineEntry(line: string, current: string, prefix: string): seq<Worktree> {
    if !(WorktreeMarker <= line) && BranchMarker <= line && prefix <= current
    then [Worktree(current, ShortBranch(line[|BranchMarker|..]))]
    else []
  }

  /** The current path after one line: replaced by a `worktree ` line, kept
      otherwise (in particular, never cleared after an entry is emitted). */
  function LinePath(line: string, current: string): string {
    if WorktreeMarker <= line then line[|WorktreeMarker|..] else current
  }

  /** The loop of `parse_worktrees`, one line per step, from the path
      `current` (initially ""). */
  function ScanWorktrees(lines: seq<string>, current: string, prefix: string): (r: seq<Worktree>)
    ensures |r| <= |lines|
    ensures forall i :: 0 <= i < |r| ==> prefix <= r[i].path
    decreases |lines|
  {
    if lines == [] then []
    else LineEntry(lines[0], current, prefix) + ScanWorktrees(lines[1..], LinePath(lines[0], current), prefix)
  }

  /** The path the loop holds after reading `lines`, starting from `current`. */
  function PathAfter(lines: seq<string>, current: string): string
    decreases |lines|
  {
    if lines == [] then current else PathAfter(lines[1..], LinePath(lines[0], current))
  }

  lemma ScanCons(line: string, rest: seq<string>, current: string, prefix: string)
    ensures ScanWorktrees([line] + rest, current, prefix)
         == LineEntry(line, current, prefix) + ScanWorktrees(rest, LinePath(line, current), prefix)
    ensures PathAfter([line] + rest, current) == PathAfter(rest, LinePath(line, current))
  {
    assert ([line] + rest)[1..] == rest;
  }

  /** `parse_worktrees(output, spawn_prefix)`. */
  function ParseWorktrees(output: string, prefix: string): (r: seq<Worktree>)
    ensures forall i :: 0 <= i < |r| ==> prefix <= r[i].path
    ensures output == [] ==> r == []
  {
    ScanWorktrees(Lines(output), "", prefix)
  }

  /** Reading `a + b` emits what `a` emits followed by what `b` emits from
      the path `a` left behind: the output follows the input order. */
  lemma {:induction false} ScanAppend(a: seq<string>, b: seq<string>, current: string, prefix: string)
    ensures ScanWorktrees(a + b, current, prefix)
         == ScanWorktrees(a, current, prefix) + ScanWorktrees(b, PathAfter(a, current), prefix)
    decreases |a|
  {
    if a != [] {
      assert (a + b)[0] == a[0];
      assert (a + b)[1..] == a[1..] + b;
      var next := LinePath(a[0], current);
      ScanAppend(a[1..], b, next, prefix);
      var here := LineEntry(a[0], current, prefix);
      var tailA := ScanWorktrees(a[1..], next, prefix);
      var tailB := ScanWorktrees(b, PathAfter(a[1..], next), prefix);
      assert here + (tailA + tailB) == (here + tailA) + tailB;
    } else {
      assert a + b == b;
    }
  }

  // An index-based reference for the state machine: each `branch ` line
  // stands on its own, paired with the last `worktree ` line above it.

  /** Path of the last `worktree ` line strictly before index `i`, or "". */
  function PathBefore(lines: seq<string>, i: nat): string
    requires i <= |lines|
    decreases i
  {
    if i == 0 then ""
    else if WorktreeMarker <= lines[i - 1] then lines[i - 1][|WorktreeMarker|..]
    else PathBefore(lines, i - 1)
  }

  /** The entry line `i` contributes: one when it is a `branch ` line whose
      governing path starts with `prefix`, none otherwise. */
  function EntryAt(lines: seq<string>, i: nat, prefix: string): seq<Worktree>
    requires i < |lines|
  {
    var line := lines[i];
    var path := PathBefore(lines, i);
    if BranchMarker <= line && !(WorktreeMarker <= line) && prefix <= path
    then [Worktree(path, ShortBranch(line[|BranchMarker|..]))]
    else []
  }

  /** The entries of lines `i..`, in line order. */
  function EntriesFrom(lines: seq<string>, i: nat, prefix: string): seq<Worktree>
    requires i <= |lines|
    decreases |lines| - i
  {
    if i == |lines| then [] else EntryAt(lines, i, prefix) + EntriesFrom(lines, i + 1, prefix)
  }

  lemma {:induction false} ScanMatchesEntriesFrom(lines: seq<string>, i: nat, prefix: string)
    requires i <= |lines|
    ensures ScanWorktrees(lines[i..], PathBefore(lines, i), prefix) == EntriesFrom(lines, i, prefix)
    decreases |lines| - i
  {
    if i < |lines| {
      var path := PathBefore(lines, i);
      assert lines[i..] == [lines[i]] + lines[i + 1..];
      ScanCons(lines[i], lines[i + 1..], path, prefix);
      assert LinePath(lines[i], path) == PathBefore(lines, i + 1);
      assert LineEntry(lines[i], path, prefix) == EntryAt(lines, i, prefix);
      ScanMatchesEntriesFrom(lines, i + 1, prefix);
    }
  }

  /** The state machine agrees with the per-line reference on every input. */
  lemma ScanMatchesReference(lines: seq<string>, prefix: string)
    ensures ScanWorktrees(lines, "", prefix) == EntriesFrom(lines, 0, prefix)
  {
    ScanMatchesEntriesFrom(lines, 0, prefix);
    assert lines[0..] == lines;
  }

  /** `parse_branches` over already split lines: each line trimmed, blank
      ones dropped. Both directions: every output is a trimmed input line,
      and every non-blank trimmed input line is in the output. */
  function ParseBranchLines(lines: seq<string>): (r: seq<string>)
    ensures |r| <= |lines|
    ensures forall i :: 0 <= i < |r| ==> r[i] != [] && NoEdgeWhitespace(r[i])
    decreases |lines|
  {
    if lines == [] then [] else BranchOfLine(lines[0]) + ParseBranchLines(lines[1..])
  }

  /** What one line contributes: its trim, unless that is empty. */
  function BranchOfLine(line: string): (r: seq<string>)
    ensures |r| <= 1
    ensures forall i :: 0 <= i < |r| ==> r[i] != [] && NoEdgeWhitespace(r[i])
  {
    var t := Trim(line);
    if t == [] then [] else [t]
  }

  /** Membership in both directions: `b` is parsed out of `lines` exactly
      when it is non-empty and is the trim of some line. */
  lemma {:induction false} ParseBranchLinesMembers(lines: seq<string>, b: string)
    ensures b in ParseBranchLines(lines) <==> b != [] && exists l :: l in lines && Trim(l) == b
    decreases |lines|
  {
    if lines != [] {
      ParseBranchLinesMembers(lines[1..], b);
      assert forall l :: l in lines <==> l == lines[0] || l in lines[1..];
    }
  }

  /** `parse_branches(output)`. */
  function ParseBranches(output: string): (r: seq<string>)
    ensures forall i :: 0 <= i < |r| ==> r[i] != [] && NoEdgeWhitespace(r[i])
    ensures output == [] ==> r == []
  {
    ParseBranchLines(Lines(output))
  }

  /** The branch parser works line by line, so it distributes over concatenation. */
  lemma {:induction false} ParseBranchLinesAppend(a: seq<string>, b: seq<string>)
    ensures ParseBranchLines(a + b) == ParseBranchLines(a) + ParseBranchLines(b)
    decreases |a|
  {
    if a != [] {
      assert (a + b)[0] == a[0];
      assert (a + b)[1..] == a[1..] + b;
      ParseBranchLinesAppend(a[1..], b);
      var x, y, z := BranchOfLine(a[0]), ParseBranchLines(a[1..]), ParseBranchLines(b);
      assert x + (y + z) == (x + y) + z;
    } else {
      assert a + b == b;
    }
  }

  /** A name `git branch` would print: non-empty, no surrounding
      whitespace, no line break. */
  predicate IsBranchName(b: string) {
    b != [] && NoEdgeWhitespace(b) && '\n' !in b
  }

  /** Printing branch names one per line and parsing them back returns the
      same names, in order, duplicates included. */
  lemma {:induction false} ParseBranchesRoundTrip(bs: seq<string>)
    requires forall i :: 0 <= i < |bs| ==> IsBranchName(bs[i])
    ensures ParseBranches(JoinLines(bs)) == bs
  {
    forall i | 0 <= i < |bs|
      ensures IsPlainLine(bs[i])
    {
      assert !IsWhitespace(bs[i][|bs[i]| - 1]);
    }
    LinesOfJoinLines(bs);
    BranchLinesIdentity(bs);
  }

  lemma {:induction false} BranchLinesIdentity(bs: seq<string>)
    requires forall i :: 0 <= i < |bs| ==> IsBranchName(bs[i])
    ensures ParseBranchLines(bs) == bs
    decreases |bs|
  {
    if bs != [] {
      BranchLinesIdentity(bs[1..]);
      assert bs == [bs[0]] + bs[1..];
    }
  }

  // The repository's own branch-parser tests. The inputs are parameters
  // fixed by the requires so that the verifier reasons about them
  // symbolically instead of unfolding every function on a literal.

  /** The basic test: one name per line. */
  lemma BranchesBasicExample(output: string)
    requires output == "main\nfeature/cool\nfix-bug\n"
    ensures ParseBranches(output) == ["main", "feature/cool", "fix-bug"]
  {
    BasicExampleRoundTrip(output, ["main", "feature/cool", "fix-bug"]);
  }

  lemma BasicExampleRoundTrip(output: string, bs: seq<string>)
    requires output == "main\nfeature/cool\nfix-bug\n"
    requires bs == ["main", "feature/cool", "fix-bug"]
    ensures ParseBranches(output) == bs
  {
    BasicExampleText(output, bs);
    BasicExampleNames(bs);
    ParseBranchesRoundTrip(bs);
  }

  lemma BasicExampleText(output: string, bs: seq<string>)
    requires output == "main\nfeature/cool\nfix-bug\n"
    requires bs == ["main", "feature/cool", "fix-bug"]
    ensures JoinLines(bs) == output
  {
    JoinThree(bs[0], bs[1], bs[2]);
    assert bs == [bs[0], bs[1], bs[2]];
  }

  lemma JoinThree(x: string, y: string, z: string)
    ensures JoinLines([x, y, z]) == x + "\n" + (y + "\n" + (z + "\n"))
  {
    assert JoinLines([z]) == z + "\n" by {
      assert [z][1..] == [];
      assert z + "\n" + [] == z + "\n";
    }
    assert JoinLines([y, z]) == y + "\n" + (z + "\n") by {
      assert [y, z][1..] == [z];
    }
    assert [x, y, z][1..] == [y, z];
  }

  lemma BasicExampleNames(bs: seq<string>)
    requires bs == ["main", "feature/cool", "fix-bug"]
    ensures forall i :: 0 <= i < |bs| ==> IsBranchName(bs[i])
  {
    assert IsBranchName(bs[0]) && IsBranchName(bs[1]) && IsBranchName(bs[2]);
  }

  /** Spaces and tabs only. */
  predicate IsBlank(p: string) {
    forall i :: 0 <= i < |p| ==> p[i] == ' ' || p[i] == '\t'
  }

  lemma BlankIsPlain(p: string)
    requires IsBlank(p)
    ensures IsPlainLine(p)
  {
    if p != [] {
      assert p[|p| - 1] == ' ' || p[|p| - 1] == '\t';
    }
  }

  lemma BlankIsWhitespace(p: string)
    requires IsBlank(p)
    ensures AllWhitespace(p)
  {
  }

  lemma PaddedNameLine(pre: string, name: string, post: string)
    requires IsBlank(pre) && IsBlank(post) && IsBranchName(name)
    ensures IsPlainLine(pre + name + post)
    ensures Trim(pre + name + post) == name
  {
    BlankIsPlain(pre);
    BlankIsPlain(post);
    assert IsPlainLine(name) by {
      assert !IsWhitespace(name[|name| - 1]);
    }
    PlainConcat(pre, name);
    PlainConcat(pre + name, post);
    BlankIsWhitespace(pre);
    BlankIsWhitespace(post);
    TrimPadded(pre, name, post);
  }

  /** The shape of the whitespace test: two names padded with blanks around
      an empty line parse to just the two names. */
  lemma BranchesStripWhitespace(p1: string, a: string, p2: string, p3: string, b: string, p4: string)
    requires IsBlank(p1) && IsBlank(p2) && IsBlank(p3) && IsBlank(p4)
    requires IsBranchName(a) && IsBranchName(b)
    ensures ParseBranches(JoinLines([p1 + a + p2, "", p3 + b + p4])) == [a, b]
  {
    PaddedLinesSplit(p1, a, p2, p3, b, p4);
    PaddedLineBranch(p1, a, p2);
    PaddedLineBranch(p3, b, p4);
    ThreeLinesParse(p1 + a + p2, p3 + b + p4, a, b);
  }

  lemma PaddedLinesSplit(p1: string, a: string, p2: string, p3: string, b: string, p4: string)
    requires IsBlank(p1) && IsBlank(p2) && IsBlank(p3) && IsBlank(p4)
    requires IsBranchName(a) && IsBranchName(b)
    ensures Lines(JoinLines([p1 + a + p2, "", p3 + b + p4])) == [p1 + a + p2, "", p3 + b + p4]
  {
    PaddedNameLine(p1, a, p2);
    PaddedNameLine(p3, b, p4);
    LinesOfJoinLines([p1 + a + p2, "", p3 + b + p4]);
  }

  lemma PaddedLineBranch(pre: string, name: string, post: string)
    requires IsBlank(pre) && IsBlank(post) && IsBranchName(name)
    ensures BranchOfLine(pre + name + post) == [name]
  {
    PaddedNameLine(pre, name, post);
  }

  lemma ThreeLinesParse(l1: string, l3: string, a: string, b: string)
    requires BranchOfLine(l1) == [a] && BranchOfLine(l3) == [b]
    ensures ParseBranchLines([l1, "", l3]) == [a, b]
  {
    ParseThreeLines(l1, "", l3);
    assert BranchOfLine("") == [];
  }

  lemma ParseThreeLines(x: string, y: string, z: string)
    ensures ParseBranchLines([x, y, z]) == BranchOfLine(x) + BranchOfLine(y) + BranchOfLine(z)
  {
    assert ParseBranchLines([z]) == BranchOfLine(z) by {
      assert [z][1..] == [];
      assert BranchOfLine(z) + [] == BranchOfLine(z);
    }
    assert ParseBranchLines([y, z]) == BranchOfLine(y) + BranchOfLine(z) by {
      assert [y, z][1..] == [z];
    }
    assert ParseBranchLines([x, y, z]) == BranchOfLine(x) + (BranchOfLine(y) + BranchOfLine(z)) by {
      assert [x, y, z][1..] == [y, z];
    }
    assert BranchOfLine(x) + (BranchOfLine(y) + BranchOfLine(z)) == BranchOfLine(x) + BranchOfLine(y) + BranchOfLine(z);
  }

  /** The repository's whitespace test itself, as an instance of the above. */
  lemma BranchesStripWhitespaceExample(output: string)
    requires output == "  main \n\n  dev  \n"
    ensures ParseBranches(output) == ["main", "dev"]
  {
    WhitespaceExampleInstance(output, "  ", "main", " ", "dev", "  ");
  }

  lemma WhitespaceExampleInstance(output: string, two: string, a: string, one: string, b: string, two': string)
    requires output == "  main \n\n  dev  \n"
    requires two == "  " && two' == "  " && one == " " && a == "main" && b == "dev"
    ensures ParseBranches(output) == [a, b]
  {
    WhitespaceExampleText(output, two, a, one, b, two');
    WhitespaceExampleNames(a, b);
    BranchesStripWhitespace(two, a, one, two, b, two');
  }

  lemma WhitespaceExampleText(output: string, two: string, a: string, one: string, b: string, two': string)
    requires output == "  main \n\n  dev  \n"
    requires two == "  " && two' == "  " && one == " " && a == "main" && b == "dev"
    ensures JoinLines([two + a + one, "", two + b + two']) == output
  {
    JoinThree(two + a + one, "", two + b + two');
  }

  lemma WhitespaceExampleNames(a: string, b: string)
    requires a == "main" && b == "dev"
    ensures IsBranchName(a) && IsBranchName(b)
  {
  }
}

=== FILE: porcelain.dfy ===
/** What `parse_worktrees` makes of `git worktree list --porcelain` output
    made of records of the shape the repository's tests use: a
    `worktree <path>` line, a `HEAD <hash>` line, then `branch <ref>` or
    `bare`, each record closed by a blank line. Other record shapes are
    covered only by the line-level reference of `Parsers`. */
module Porcelain {
  import opened Wrappers
  import opened Text
  import opened Parsers

  /** One porcelain record; `branchRef` is None for a `bare` record. */
  datatype Record = Record(path: string, head: string, branchRef: Option<string>)

  function RecordLines(rec: Record): seq<string> {
    [WorktreeMarker + rec.path, "HEAD " + rec.head]
    + (match rec.branchRef
       case Some(ref) => [BranchMarker + ref]
       case None => ["bare"])
    + [""]
  }

  function PorcelainLines(recs: seq<Record>): seq<string> {
    if recs == [] then [] else RecordLines(recs[0]) + PorcelainLines(recs[1..])
  }

  /** The reference result: the records that have a branch and whose path
      starts with `prefix`, in order, with the short branch name. */
  function Managed(recs: seq<Record>, prefix: string): (r: seq<Worktree>)
    ensures |r| <= |recs|
    ensures forall i :: 0 <= i < |r| ==> prefix <= r[i].path
    decreases |recs|
  {
    if recs == [] then []
    else
      RecordEntry(recs[0], prefix) + Managed(recs[1..], prefix)
  }

  /** What the first record contributes to `Managed`. */
  function RecordEntry(rec: Record, prefix: string): seq<Worktree> {
    if rec.branchRef.Some? && prefix <= rec.path
    then [Worktree(rec.path, ShortBranch(rec.branchRef.value))]
    else []
  }

  /** A `worktree ` line emits nothing and makes its path current. */
  lemma WorktreeLine(p: string, current: string, prefix: string)
    ensures LineEntry(WorktreeMarker + p, current, prefix) == []
    ensures LinePath(WorktreeMarker + p, current) == p
  {
    assert (WorktreeMarker + p)[..|WorktreeMarker|] == WorktreeMarker;
    assert (WorktreeMarker + p)[|WorktreeMarker|..] == p;
  }

  /** A `branch ` line emits an entry for the current path when that path
      starts with the prefix, and keeps the current path. */
  lemma BranchLine(ref: string, current: string, prefix: string)
    ensures LineEntry(BranchMarker + ref, current, prefix)
         == (if prefix <= current then [Worktree(current, ShortBranch(ref))] else [])
    ensures LinePath(BranchMarker + ref, current) == current
  {
    var l := BranchMarker + ref;
    assert l[0] == 'b' && WorktreeMarker[0] == 'w';
    assert l[..|BranchMarker|] == BranchMarker;
    assert l[|BranchMarker|..] == ref;
  }

  /** The `HEAD`, `bare` and blank lines of a record start with neither
      marker, so they are skipped. */
  lemma OtherLine(l: string, current: string, prefix: string)
    requires l == [] || l == "bare" || (|l| > 0 && l[0] == 'H')
    ensures LineEntry(l, current, prefix) == []
    ensures LinePath(l, current) == current
  {
    assert WorktreeMarker[0] == 'w' && BranchMarker[0] == 'b' && BranchMarker[1] == 'r';
    if l == "bare" {
      assert l[0] == 'b' && l[1] == 'a';
    }
  }

  /** One record emits at most its own entry and leaves its path current. */
  lemma RecordContribution(rec: Record, current: string, prefix: string)
    ensures ScanWorktrees(RecordLines(rec), current, prefix) == RecordEntry(rec, prefix)
    ensures PathAfter(RecordLines(rec), current) == rec.path
  {
    var p := rec.path;
    var l0 := WorktreeMarker + p;
    var l1 := "HEAD " + rec.head;
    var l2 := if rec.branchRef.Some? then BranchMarker + rec.branchRef.value else "bare";
    var l3: string := [];
    assert RecordLines(rec) == [l0] + ([l1] + ([l2] + ([l3] + [])));
    WorktreeLine(p, current, prefix);
    assert l1[0] == 'H';
    OtherLine(l1, p, prefix);
    OtherLine(l3, p, prefix);
    if rec.branchRef.Some? {
      BranchLine(rec.branchRef.value, p, prefix);
    } else {
      OtherLine(l2, p, prefix);
    }
    ScanCons(l3, [], p, prefix);
    ScanCons(l2, [l3] + [], p, prefix);
    ScanCons(l1, [l2] + ([l3] + []), p, prefix);
    ScanCons(l0, [l1] + ([l2] + ([l3] + [])), current, prefix);
  }

  /** Parsing well-formed porcelain lines gives exactly the reference result,
      whatever path an earlier line left current. */
  lemma {:induction false} ParsePorcelainLines(recs: seq<Record>, current: string, prefix: string)
    ensures ScanWorktrees(PorcelainLines(recs), current, prefix) == Managed(recs, prefix)
    decreases |recs|
  {
    if recs != [] {
      var rec := recs[0];
      ScanAppend(RecordLines(rec), PorcelainLines(recs[1..]), current, prefix);
      RecordContribution(rec, current, prefix);
      ParsePorcelainLines(recs[1..], rec.path, prefix);
    }
  }

  /** A record whose fields `Lines` can give back unchanged. */
  predicate IsPlainRecord(rec: Record) {
    && IsPlainLine(rec.path)
    && IsPlainLine(rec.head)
    && (rec.branchRef.Some? ==> IsPlainLine(rec.branchRef.value))
  }

  lemma PlainRecordLines(rec: Record)
    requires IsPlainRecord(rec)
    ensures forall i :: 0 <= i < |RecordLines(rec)| ==> IsPlainLine(RecordLines(rec)[i])
  {
    assert IsPlainLine(WorktreeMarker) && IsPlainLine("HEAD ") && IsPlainLine(BranchMarker);
    PlainConcat(WorktreeMarker, rec.path);
    PlainConcat("HEAD ", rec.head);
    if rec.branchRef.Some? {
      PlainConcat(BranchMarker, rec.branchRef.value);
    }
  }

  lemma {:induction false} PlainPorcelainLines(recs: seq<Record>)
    requires forall i :: 0 <= i < |recs| ==> IsPlainRecord(recs[i])
    ensures forall i :: 0 <= i < |PorcelainLines(recs)| ==> IsPlainLine(PorcelainLines(recs)[i])
    decreases |recs|
  {
    if recs != [] {
      PlainRecordLines(recs[0]);
      PlainPorcelainLines(recs[1..]);
    }
  }

  /** End to end over records of the tests' shape printed the way git
      prints them, every record closed by a blank line, the last one
      included: parsing returns exactly the managed worktrees with a branch. A bare record, or one outside `prefix`,
      contributes nothing. */
  lemma ParsePorcelainText(recs: seq<Record>, prefix: string)
    requires forall i :: 0 <= i < |recs| ==> IsPlainRecord(recs[i])
    ensures ParseWorktrees(JoinLines(PorcelainLines(recs)), prefix) == Managed(recs, prefix)
  {
    PlainPorcelainLines(recs);
    LinesOfJoinLines(PorcelainLines(recs));
    ParsePorcelainLines(recs, "", prefix);
  }

  /** The text the parser tests of plugin/src/main.rs feed in for `recs`:
      the records' lines with a blank line between two records and none
      after the last one. */
  function PorcelainOutput(recs: seq<Record>): string {
    var ls := PorcelainLines(recs);
    if ls == [] then [] else JoinLines(ls[..|ls| - 1])
  }

  /** Every record's lines end with the blank line that closes it. */
  lemma {:induction false} PorcelainEndsBlank(recs: seq<Record>)
    requires recs != []
    ensures PorcelainLines(recs) != [] && PorcelainLines(recs)[|PorcelainLines(recs)| - 1] == []
    decreases |recs|
  {
    var first := RecordLines(recs[0]);
    var rest := PorcelainLines(recs[1..]);
    assert first[|first| - 1] == [];
    if recs[1..] != [] {
      PorcelainEndsBlank(recs[1..]);
      assert (first + rest)[|first + rest| - 1] == rest[|rest| - 1];
    } else {
      assert first + rest == first;
    }
  }

  /** End to end over the tests' text (no blank line after the last
      record): parsing gives the same reference result. */
  lemma ParsePorcelainOutput(recs: seq<Record>, prefix: string)
    requires forall i :: 0 <= i < |recs| ==> IsPlainRecord(recs[i])
    ensures ParseWorktrees(PorcelainOutput(recs), prefix) == Managed(recs, prefix)
  {
    if recs != [] {
      var ls := PorcelainLines(recs);
      PorcelainEndsBlank(recs);
      PlainPorcelainLines(recs);
      var init := ls[..|ls| - 1];
      assert ls == init + [[]];
      LinesOfJoinLines(init);
      ScanAppend(init, [[]], "", prefix);
      OtherLine([], PathAfter(init, ""), prefix);
      ScanCons([], [], PathAfter(init, ""), prefix);
      ParsePorcelainLines(recs, "", prefix);
    }
  }

  /** The current path is never cleared: two `branch ` lines after one
      `worktree ` line both pair with that path. */
  lemma PathIsNeverCleared(p: string, a: string, b: string, prefix: string)
    ensures ScanWorktrees([WorktreeMarker + p, BranchMarker + a, BranchMarker + b], "", prefix)
         == (if prefix <= p then [Worktree(p, ShortBranch(a)), Worktree(p, ShortBranch(b))] else [])
  {
    var ls := [WorktreeMarker + p, BranchMarker + a, BranchMarker + b];
    WorktreeLine(p, "", prefix);
    BranchLine(a, p, prefix);
    BranchLine(b, p, prefix);
    assert ls == [ls[0]] + ([ls[1]] + ([ls[2]] + []));
    ScanCons(ls[2], [], p, prefix);
    ScanCons(ls[1], [ls[2]], p, prefix);
    ScanCons(ls[0], [ls[1]] + [ls[2]], "", prefix);
  }

  /** A `branch ` line before any `worktree ` line pairs with the initial
      empty path, so it is kept only when the prefix is empty. */
  lemma BranchBeforeAnyWorktree(ref: string, prefix: string)
    ensures ScanWorktrees([BranchMarker + ref], "", prefix)
         == (if prefix == [] then [Worktree("", ShortBranch(ref))] else [])
  {
    BranchLine(ref, "", prefix);
    ScanCons(BranchMarker + ref, [], "", prefix);
    assert [BranchMarker + ref] == [BranchMarker + ref] + [];
  }

  // The records of the repository's own parser tests.
  const TestPrefix: string := "/Users/me/.spawn-agent/myrepo/"
  const MainRecord := Record("/Users/me/code/myrepo", "abc123", Some("refs/heads/main"))
  const CoolRecord := Record("/Users/me/.spawn-agent/myrepo/feature/cool", "def456", Some("refs/heads/feature/cool"))
  const FixRecord := Record("/Users/me/.spawn-agent/myrepo/fix-bug", "789abc", Some("refs/heads/fix-bug"))
  const OtherRepoRecord := Record("/Users/me/.spawn-agent/" + "other-repo/feature/cool", "111222", Some("refs/heads/feature/cool"))
  const BareDevRecord := Record("/Users/me/.spawn-agent/myrepo/dev", "def456", None)

  lemma UnmanagedRecords()
    ensures RecordEntry(MainRecord, TestPrefix) == []
    ensures RecordEntry(OtherRepoRecord, TestPrefix) == []
    ensures RecordEntry(BareDevRecord, TestPrefix) == []
  {
    assert MainRecord.path[10] != TestPrefix[10];
    assert OtherRepoRecord.path[23] != TestPrefix[23];
  }

  lemma ManagedRecords()
    ensures RecordEntry(CoolRecord, TestPrefix) == [Worktree(CoolRecord.path, "feature/cool")]
    ensures RecordEntry(FixRecord, TestPrefix) == [Worktree(FixRecord.path, "fix-bug")]
  {
    assert CoolRecord.path == TestPrefix + "feature/cool";
    assert FixRecord.path == TestPrefix + "fix-bug";
    assert CoolRecord.branchRef.value == HeadsPrefix + "feature/cool";
    assert FixRecord.branchRef.value == HeadsPrefix + "fix-bug";
  }

  /** No character is a line break. */
  predicate NoBreaks(x: string) {
    forall i :: 0 <= i < |x| ==> x[i] != '\n' && x[i] != '\r'
  }

  lemma NoBreaksIsPlain(x: string)
    requires NoBreaks(x)
    ensures IsPlainLine(x)
  {
    assert forall c :: c in x ==> c != '\n';
  }

  lemma NoBreaksConcat(a: string, b: string)
    requires NoBreaks(a) && NoBreaks(b)
    ensures NoBreaks(a + b)
  {
    assert forall i :: |a| <= i < |a + b| ==> (a + b)[i] == b[i - |a|];
  }

  /** A record whose fields hold no line break is plain. */
  lemma NoBreaksRecord(rec: Record)
    requires NoBreaks(rec.path) && NoBreaks(rec.head)
    requires rec.branchRef.Some? ==> NoBreaks(rec.branchRef.value)
    ensures IsPlainRecord(rec)
  {
    NoBreaksIsPlain(rec.path);
    NoBreaksIsPlain(rec.head);
    if rec.branchRef.Some? {
      NoBreaksIsPlain(rec.branchRef.value);
    }
  }

  /** The lines of the test records hold no line break. */
  lemma TestRecordsArePlain()
    ensures IsPlainRecord(MainRecord) && IsPlainRecord(CoolRecord) && IsPlainRecord(FixRecord)
    ensures IsPlainRecord(OtherRepoRecord) && IsPlainRecord(BareDevRecord)
  {
    MainRecordIsPlain();
    CoolRecordIsPlain();
    FixRecordIsPlain();
    OtherRepoRecordIsPlain();
    BareDevRecordIsPlain();
  }

  lemma MainRecordIsPlain()
    ensures IsPlainRecord(MainRecord)
  {
    assert NoBreaks(MainRecord.path);
    assert NoBreaks(MainRecord.head);
    NoBreaksRecord(MainRecord);
  }

  lemma CoolRecordIsPlain()
    ensures IsPlainRecord(CoolRecord)
  {
    assert NoBreaks(CoolRecord.path);
    assert NoBreaks(CoolRecord.head);
    NoBreaksRecord(CoolRecord);
  }

  lemma FixRecordIsPlain()
    ensures IsPlainRecord(FixRecord)
  {
    assert NoBreaks(FixRecord.path);
    assert NoBreaks(FixRecord.head);
    NoBreaksRecord(FixRecord);
  }

  lemma OtherRepoRecordIsPlain()
    ensures IsPlainRecord(OtherRepoRecord)
  {
    NoBreaksConcat("/Users/me/.spawn-agent/", "other-repo/feature/cool");
    assert NoBreaks(OtherRepoRecord.head);
    NoBreaksRecord(OtherRepoRecord);
  }

  lemma BareDevRecordIsPlain()
    ensures IsPlainRecord(BareDevRecord)
  {
    assert NoBreaks(BareDevRecord.path);
    assert NoBreaks(BareDevRecord.head);
    NoBreaksRecord(BareDevRecord);
  }

  /** The filtering test of the repository (`parse_worktrees_filters_by_prefix`):
      of four records only the two under ".spawn-agent/myrepo/" survive, in
      order, with their short branch names. */
  lemma FiltersByPrefixExample()
    ensures ParseWorktrees(PorcelainOutput([MainRecord, CoolRecord, FixRecord, OtherRepoRecord]), TestPrefix)
         == [Worktree("/Users/me/.spawn-agent/myrepo/feature/cool", "feature/cool"),
             Worktree("/Users/me/.spawn-agent/myrepo/fix-bug", "fix-bug")]
  {
    var recs := [MainRecord, CoolRecord, FixRecord, OtherRepoRecord];
    TestRecordsArePlain();
    ParsePorcelainOutput(recs, TestPrefix);
    FiltersByPrefixRecords(recs);
  }

  lemma FiltersByPrefixRecords(recs: seq<Record>)
    requires recs == [MainRecord, CoolRecord, FixRecord, OtherRepoRecord]
    ensures Managed(recs, TestPrefix)
         == [Worktree("/Users/me/.spawn-agent/myrepo/feature/cool", "feature/cool"),
             Worktree("/Users/me/.spawn-agent/myrepo/fix-bug", "fix-bug")]
  {
    UnmanagedRecords();
    ManagedRecords();
    assert recs[1..][1..][1..][1..] == [];
    var cool := Worktree(CoolRecord.path, "feature/cool");
    var fix := Worktree(FixRecord.path, "fix-bug");
    assert Managed(recs[1..][1..][1..], TestPrefix) == [];
    assert Managed(recs[1..][1..], TestPrefix) == [fix];
    assert Managed(recs[1..], TestPrefix) == [cool, fix];
  }

  /** The bare-entry test of the repository (`parse_worktrees_bare_entry_skipped`):
      the managed record is bare and the branch record is unmanaged, so
      nothing is kept. */
  lemma BareEntrySkippedExample()
    ensures ParseWorktrees(PorcelainOutput([MainRecord, BareDevRecord]), TestPrefix) == []
  {
    var recs := [MainRecord, BareDevRecord];
    TestRecordsArePlain();
    ParsePorcelainOutput(recs, TestPrefix);
    UnmanagedRecords();
    assert recs[1..][1..] == [];
  }
}

=== FILE: results.dfy ===
/** The command-result handlers of plugin/src/main.rs (`handle_git_toplevel`,
    `handle_list_worktrees`, `handle_git_branches`, `handle_spawn_result`,
    `handle_remove_result`). Output bytes are taken as already decoded text;
    the value of `$HOME` is a parameter. */
module ResultHandlers {
  import opened Wrappers
  import opened Text
  import opened Parsers
  import opened PluginState

  /** A command succeeded exactly when its exit code is `Some(0)`; a missing
      exit code (the process was killed) counts as failure. */
  predicate Succeeded(exitCode: Option<int>) {
    exitCode == Some(0)
  }

  /** The fields only key handlers change. */
  predicate KeepsUserInput(s: State, t: State) {
    && t.filteredBranches == s.filteredBranches
    && t.inputBuffer == s.inputBuffer
    && t.agentCmd == s.agentCmd
    && t.spawnAgentPath == s.spawnAgentPath
  }

  const NotARepoPrefix: string := "Not a git repo: "

  /** `handle_git_toplevel`. On failure only the status changes, to the
      untrimmed error text; on success the repository root is the trimmed
      output, its name the text after the last '/', the worktree list opens
      and both listings are requested. */
  function HandleGitToplevel(s: State, exitCode: Option<int>, stdout: string, stderr: string): (t: Transition)
    ensures KeepsUserInput(s, t.next)
    ensures t.next.worktrees == s.worktrees && t.next.branches == s.branches
    ensures t.next.selectedIndex == s.selectedIndex
    ensures RunToplevel !in t.effects
    ensures !Succeeded(exitCode)
         ==> t == Transition(s.(statusMessage := NotARepoPrefix + stderr, statusIsError := true), [])
    ensures Succeeded(exitCode) ==> && t.effects == [RunListWorktrees, RunBranches]
                                    && t.next.mode == BrowseWorktrees
                                    && t.next.repoRoot == Trim(stdout)
                                    && NoEdgeWhitespace(t.next.repoRoot)
                                    && '/' !in t.next.repoName
                                    && |t.next.repoName| <= |t.next.repoRoot|
                                    && t.next.repoRoot[|t.next.repoRoot| - |t.next.repoName|..] == t.next.repoName
                                    && (|t.next.repoName| < |t.next.repoRoot|
                                        ==> t.next.repoRoot[|t.next.repoRoot| - |t.next.repoName| - 1] == '/')
                                    && t.next.statusMessage == s.statusMessage
                                    && t.next.statusIsError == s.statusIsError
  {
    if !Succeeded(exitCode) then
      Transition(s.(statusMessage := NotARepoPrefix + stderr, statusIsError := true), [])
    else
      var root := Trim(stdout);
      Transition(s.(repoName := LastSegment(root), repoRoot := root, mode := BrowseWorktrees),
                 [RunListWorktrees, RunBranches])
  }

  /** `git rev-parse --show-toplevel` printing a directory `dir/name` followed
      by a newline yields the repository name `name`. */
  lemma ToplevelNamesRepository(s: State, dir: string, name: string)
    requires name != [] && '/' !in name && !IsWhitespace(name[|name| - 1])
    requires dir == [] || !IsWhitespace(dir[0])
    ensures HandleGitToplevel(s, Some(0), dir + "/" + name + "\n", []).next.repoName == name
    ensures HandleGitToplevel(s, Some(0), dir + "/" + name + "\n", []).next.repoRoot == dir + "/" + name
  {
    var root := dir + "/" + name;
    assert root[|root| - 1] == name[|name| - 1];
    assert root[0] == (if dir == [] then '/' else dir[0]);
    TrimPadded([], root, "\n");
    assert [] + root + "\n" == root + "\n";
    LastSegmentOfJoin(dir, name);
  }

  /** The cursor after the worktree list is replaced by one of `len` rows:
      pulled back to the last row when it fell off the end of a non-empty
      list, left alone otherwise (also when the list is empty). */
  function ClampCursor(i: nat, len: nat): (j: nat)
    ensures len > 0 ==> j < len
    ensures i < len ==> j == i
    ensures i >= len > 0 ==> j == len - 1
    ensures len == 0 ==> j == i
    ensures j <= i
  {
    if i >= len && len > 0 then len - 1 else i
  }

  /** `handle_list_worktrees`: the exit code is ignored; the worktrees are
      those of the listing under `$HOME/.spawn-agent/<repo_name>/`, and the
      cursor is clamped to the new list. */
  function HandleListWorktrees(s: State, stdout: string, home: string): (t: Transition)
    ensures t.effects == []
    ensures KeepsUserInput(s, t.next)
    ensures t.next == s.(worktrees := t.next.worktrees, selectedIndex := t.next.selectedIndex)
    ensures t.next.worktrees == ParseWorktrees(stdout, SpawnPrefix(home, s.repoName))
    ensures forall i :: 0 <= i < |t.next.worktrees| ==> SpawnPrefix(home, s.repoName) <= t.next.worktrees[i].path
    ensures t.next.worktrees != [] ==> t.next.selectedIndex < |t.next.worktrees|
    ensures s.selectedIndex < |t.next.worktrees| ==> t.next.selectedIndex == s.selectedIndex
    ensures s.selectedIndex >= |t.next.worktrees| > 0 ==> t.next.selectedIndex == |t.next.worktrees| - 1
    ensures t.next.worktrees == [] ==> t.next.selectedIndex == s.selectedIndex
  {
    var wts := ParseWorktrees(stdout, SpawnPrefix(home, s.repoName));
    Transition(s.(worktrees := wts, selectedIndex := ClampCursor(s.selectedIndex, |wts|)), [])
  }

  /** `handle_git_branches`: the exit code is ignored and only the branch
      list is replaced (the picker keeps its earlier copy). */
  function HandleGitBranches(s: State, stdout: string): (t: Transition)
    ensures t.effects == []
    ensures t.next == s.(branches := t.next.branches)
    ensures t.next.branches == ParseBranches(stdout)
    ensures forall i :: 0 <= i < |t.next.branches| ==> t.next.branches[i] != [] && NoEdgeWhitespace(t.next.branches[i])
    ensures stdout == [] ==> t.next.branches == []
  {
    Transition(s.(branches := ParseBranches(stdout)), [])
  }

  /** The branch a spawn or remove command was fired for, from its context;
      "" when the context has none. */
  function ContextBranch(context: map<string, string>): (b: string)
    ensures "branch" in context ==> b == context["branch"]
    ensures "branch" !in context ==> b == []
  {
    if "branch" in context then context["branch"] else []
  }

  function SpawnedMessage(branch: string): string {
    "Spawned '" + branch + "'"
  }

  const SpawnErrorPrefix: string := "Error: "

  /** `handle_spawn_result`: a success or error status, then the worktree
      list (only) is requested again; the mode is left as it is. */
  function HandleSpawnResult(s: State, exitCode: Option<int>, stderr: string, context: map<string, string>): (t: Transition)
    ensures t.effects == [RunListWorktrees]
    ensures t.next == s.(statusMessage := t.next.statusMessage, statusIsError := t.next.statusIsError)
    ensures t.next.statusIsError <==> !Succeeded(exitCode)
    ensures Succeeded(exitCode) ==> t.next.statusMessage == SpawnedMessage(ContextBranch(context))
    ensures !Succeeded(exitCode) ==> t.next.statusMessage == SpawnErrorPrefix + Trim(stderr)
  {
    var branch := ContextBranch(context);
    if Succeeded(exitCode) then
      Transition(s.(statusMessage := SpawnedMessage(branch), statusIsError := false), [RunListWorktrees])
    else
      Transition(s.(statusMessage := SpawnErrorPrefix + Trim(stderr), statusIsError := true), [RunListWorktrees])
  }

  function RemovedMessage(branch: string): string {
    "Removed '" + branch + "'"
  }

  const RemoveErrorPrefix: string := "Remove failed: "

  /** `handle_remove_result`: a success or error status, the worktree list
      screen whatever the outcome, and the worktree list (only) requested
      again. */
  function HandleRemoveResult(s: State, exitCode: Option<int>, stderr: string, context: map<string, string>): (t: Transition)
    ensures t.effects == [RunListWorktrees]
    ensures t.next.mode == BrowseWorktrees
    ensures t.next == s.(mode := BrowseWorktrees, statusMessage := t.next.statusMessage, statusIsError := t.next.statusIsError)
    ensures t.next.statusIsError <==> !Succeeded(exitCode)
    ensures Succeeded(exitCode) ==> t.next.statusMessage == RemovedMessage(ContextBranch(context))
    ensures !Succeeded(exitCode) ==> t.next.statusMessage == RemoveErrorPrefix + Trim(stderr)
  {
    var branch := ContextBranch(context);
    var next :=
      if Succeeded(exitCode) then s.(statusMessage := RemovedMessage(branch), statusIsError := false)
      else s.(statusMessage := RemoveErrorPrefix + Trim(stderr), statusIsError := true);
    Transition(next.(mode := BrowseWorktrees), [RunListWorktrees])
  }
}

=== FILE: state.dfy ===
/** The plugin's data model (plugin/src/main.rs): the five modes, the
    `State` record, the keys it reacts to, and the effects its handlers
    request instead of calling the host directly. */
module PluginState {
  import opened Parsers

  /** The active screen; `Loading` until the repository is known. */
  datatype Mode = Loading | BrowseWorktrees | SelectBranch | InputBranch | Confirming

  datatype KeyModifier = Ctrl | Alt | Shift | Super

  /** The bare keys the handlers distinguish; every other key is `OtherKey`. */
  datatype BareKey = Char(c: char) | Enter | Esc | Backspace | Up | Down | OtherKey

  datatype Key = Key(bare: BareKey, modifiers: set<KeyModifier>) {
    predicate HasNoModifiers() {
      modifiers == {}
    }

    /** Exactly Shift is held (`len() == 1 && contains(Shift)`). */
    predicate IsShiftOnly() {
      |modifiers| == 1 && Shift in modifiers
    }
  }

  /** What a handler asks the host to do: the `fire_*` calls become `Run*`
      effects and `close_self` becomes `CloseSelf`. */
  datatype Effect =
    | RunToplevel
    | RunListWorktrees
    | RunBranches
    | RunSpawn(branch: string)
    | RunRemove(branch: string)
    | CloseSelf

  /** The plugin's `State`; `selectedIndex` is a `usize` cursor into the
      worktree list or, in `SelectBranch`, into `filteredBranches`. */
  datatype State = State(
    mode: Mode,
    repoRoot: string,
    repoName: string,
    worktrees: seq<Worktree>,
    branches: seq<string>,
    filteredBranches: seq<string>,
    selectedIndex: nat,
    inputBuffer: string,
    agentCmd: string,
    statusMessage: string,
    statusIsError: bool,
    spawnAgentPath: string)

  /** The state after a handler ran, and the effects it requested, in the
      order the handler fired them. */
  datatype Transition = Transition(next: State, effects: seq<Effect>)

  /** The directory whose worktrees the plugin manages:
      `$HOME/.spawn-agent/<repo_name>/`, with HOME "" when unset. */
  function SpawnPrefix(home: string, repoName: string): string {
    home + "/.spawn-agent/" + repoName + "/"
  }

  /** Two prefixes of one text: the shorter is a prefix of the longer. */
  lemma PrefixesOfOneText(p: string, q: string, text: string)
    requires p <= text && q <= text && |p| <= |q|
    ensures p <= q
  {
    assert q[..|p|] == text[..|p|];
  }

  /** The trailing '/' keeps repositories apart: for two different repository
      names without '/', no path lies under both managed directories (so
      "my" does not claim the worktrees of "myrepo"). */
  lemma SpawnPrefixesAreDisjoint(home: string, a: string, b: string, path: string)
    requires '/' !in a && '/' !in b && a != b
    ensures !(SpawnPrefix(home, a) <= path && SpawnPrefix(home, b) <= path)
  {
    var base := home + "/.spawn-agent/";
    var pa := SpawnPrefix(home, a);
    var pb := SpawnPrefix(home, b);
    assert pa == base + (a + "/") && pb == base + (b + "/");
    if pa <= path && pb <= path {
      if |a| <= |b| {
        PrefixesOfOneText(pa, pb, path);
        CommonBaseCancels(base, a + "/", b + "/");
        NamePrefixesAreEqual(a, b);
      } else {
        PrefixesOfOneText(pb, pa, path);
        CommonBaseCancels(base, b + "/", a + "/");
        NamePrefixesAreEqual(b, a);
      }
    }
  }

  lemma CommonBaseCancels(base: string, x: string, y: string)
    requires base + x <= base + y
    ensures x <= y
  {
    assert |x| <= |y|;
    assert forall i :: 0 <= i < |x| ==> x[i] == (base + x)[|base| + i] == (base + y)[|base| + i] == y[i];
  }

  /** `a + "/"` starts `b + "/"` only when the '/'-free names are equal. */
  lemma NamePrefixesAreEqual(a: string, b: string)
    requires '/' !in b
    ensures (a + "/") <= (b + "/") ==> a == b
  {
    if (a + "/") <= (b + "/") {
      assert (b + "/")[|a|] == '/';
      assert a == (a + "/")[..|a|] == (b + "/")[..|a|];
    }
  }

  function SpawningMessage(branch: string): string {
    "Spawning '" + branch + "'..."
  }

  const RefreshedMessage: string := "Refreshed"

  function RemovingMessage(branch: string): string {
    "Removing '" + branch + "'..."
  }
}

=== FILE: text.dfy ===
/** The few string operations of Rust's standard library that the plugin
    relies on: `char::is_whitespace`, `str::trim`, `str::lines`,
    `str::starts_with` / `strip_prefix` and the first item of `rsplit('/')`.
    Strings are sequences of Unicode scalar values. */
module Text {
  import opened Wrappers

  /** The Unicode `White_Space` characters: what Rust's
      `char::is_whitespace` accepts. */
  const WhitespaceChars: set<char> := {
    '\t', '\n', '\U{0B}', '\U{0C}', '\r', ' ',
    '\U{85}', '\U{A0}', '\U{1680}', '\U{2000}', '\U{2001}', '\U{2002}',
    '\U{2003}', '\U{2004}', '\U{2005}', '\U{2006}', '\U{2007}', '\U{2008}',
    '\U{2009}', '\U{200A}', '\U{2028}', '\U{2029}', '\U{202F}', '\U{205F}',
    '\U{3000}'
  }

  predicate IsWhitespace(c: char) {
    c in WhitespaceChars
  }

  /** Neither the first nor the last character is whitespace. */
  predicate NoEdgeWhitespace(s: string) {
    s == [] || (!IsWhitespace(s[0]) && !IsWhitespace(s[|s| - 1]))
  }

  /** Drops the longest all-whitespace prefix. */
  function TrimStart(s: string): (r: string)
    ensures |r| <= |s|
    ensures r == [] || !IsWhitespace(r[0])
    decreases |s|
  {
    if s != [] && IsWhitespace(s[0]) then TrimStart(s[1..]) else s
  }

  /** Drops the longest all-whitespace suffix. */
  function TrimEnd(s: string): (r: string)
    ensures |r| <= |s|
    ensures r == [] || !IsWhitespace(r[|r| - 1])
    ensures r != [] ==> r[0] == s[0]
    decreases |s|
  {
    if s != [] && IsWhitespace(s[|s| - 1]) then TrimEnd(s[..|s| - 1]) else s
  }

  /** Rust's `str::trim`: the infix left after dropping whitespace at both
      ends. Trimming is idempotent (second ensures). */
  function Trim(s: string): (r: string)
    ensures NoEdgeWhitespace(r)
    ensures NoEdgeWhitespace(s) ==> r == s
  {
    TrimEnd(TrimStart(s))
  }

  /** `TrimStart` keeps a suffix and drops only whitespace. */
  lemma {:induction false} TrimStartDropsWhitespace(s: string)
    ensures TrimStart(s) == s[|s| - |TrimStart(s)|..]
    ensures forall i :: 0 <= i < |s| - |TrimStart(s)| ==> IsWhitespace(s[i])
    decreases |s|
  {
    if s != [] && IsWhitespace(s[0]) {
      TrimStartDropsWhitespace(s[1..]);
    }
  }

  /** `TrimEnd` keeps a prefix and drops only whitespace. */
  lemma {:induction false} TrimEndDropsWhitespace(s: string)
    ensures TrimEnd(s) == s[..|TrimEnd(s)|]
    ensures forall i :: |TrimEnd(s)| <= i < |s| ==> IsWhitespace(s[i])
    decreases |s|
  {
    if s != [] && IsWhitespace(s[|s| - 1]) {
      TrimEndDropsWhitespace(s[..|s| - 1]);
    }
  }

  predicate AllWhitespace(s: string) {
    forall i :: 0 <= i < |s| ==> IsWhitespace(s[i])
  }

  lemma {:induction false} TrimStartSkipsPadding(pad: string, s: string)
    requires AllWhitespace(pad)
    ensures TrimStart(pad + s) == TrimStart(s)
    decreases |pad|
  {
    if pad != [] {
      assert (pad + s)[1..] == pad[1..] + s;
      TrimStartSkipsPadding(pad[1..], s);
    } else {
      assert pad + s == s;
    }
  }

  lemma {:induction false} TrimEndSkipsPadding(s: string, pad: string)
    requires AllWhitespace(pad)
    ensures TrimEnd(s + pad) == TrimEnd(s)
    decreases |pad|
  {
    if pad != [] {
      var init := pad[..|pad| - 1];
      assert (s + pad)[..|s + pad| - 1] == s + init;
      TrimEndSkipsPadding(s, init);
    } else {
      assert s + pad == s;
    }
  }

  /** Trimming whitespace padding off a text without edge whitespace gives the text back. */
  lemma TrimPadded(pre: string, core: string, post: string)
    requires AllWhitespace(pre) && AllWhitespace(post) && core != [] && NoEdgeWhitespace(core)
    ensures Trim(pre + core + post) == core
  {
    var s := pre + core + post;
    assert s == pre + (core + post);
    TrimStartSkipsPadding(pre, core + post);
    assert TrimStart(core + post) == core + post by {
      assert (core + post)[0] == core[0];
    }
    TrimEndSkipsPadding(core, post);
    assert TrimEnd(core) == core;
    assert TrimStart(s) == core + post;
  }

  /** The trim is empty exactly when the text is all whitespace. */
  lemma TrimEmptyIffAllWhitespace(s: string)
    ensures Trim(s) == [] <==> AllWhitespace(s)
  {
    TrimStartDropsWhitespace(s);
    TrimEndDropsWhitespace(TrimStart(s));
  }

  /** What `Trim` drops is whitespace padding around an infix of the input. */
  lemma TrimIsInfix(s: string)
    ensures exists lo: nat {:trigger s[lo..]} :: lo <= |s| - |Trim(s)| && Trim(s) <= s[lo..]
                                                && IsWhitespacePadding(s, lo, lo + |Trim(s)|)
  {
    TrimStartDropsWhitespace(s);
    TrimEndDropsWhitespace(TrimStart(s));
    var lo := |s| - |TrimStart(s)|;
    assert Trim(s) <= s[lo..];
    assert IsWhitespacePadding(s, lo, lo + |Trim(s)|);
  }

  /** Every character of `s` outside `s[lo..hi]` is whitespace. */
  predicate IsWhitespacePadding(s: string, lo: nat, hi: nat)
    requires lo <= hi <= |s|
  {
    && (forall i :: 0 <= i < lo ==> IsWhitespace(s[i]))
    && (forall i :: hi <= i < |s| ==> IsWhitespace(s[i]))
  }

  /** Rust's `str::starts_with` is the sequence prefix relation `p <= s`;
      `strip_prefix` returns what follows the prefix when it is there. */
  function StripPrefix(s: string, p: string): (r: Option<string>)
    ensures r.Some? <==> p <= s
    ensures r.Some? ==> p + r.value == s
  {
    if p <= s then Some(s[|p|..]) else None
  }

  /** Index of the first '\n', or |s| when there is none. */
  function FirstNewline(s: string): (k: nat)
    ensures k <= |s|
    ensures k < |s| ==> s[k] == '\n'
    ensures forall i :: 0 <= i < k ==> s[i] != '\n'
    decreases |s|
  {
    if s == [] then 0
    else if s[0] == '\n' then 0
    else 1 + FirstNewline(s[1..])
  }

  /** Removes one '\r' that ended a "\r\n" line terminator. */
  function StripCarriageReturn(line: string): string {
    if line != [] && line[|line| - 1] == '\r' then line[..|line| - 1] else line
  }

  /** Rust's `str::lines`: pieces split at '\n', each losing one '\r'
      directly before its '\n'; the final terminator is optional, so text
      ending in '\n' yields no trailing empty line, and "" yields no line. */
  function Lines(s: string): (r: seq<string>)
    ensures s == [] <==> r == []
    ensures forall i :: 0 <= i < |r| ==> '\n' !in r[i]
    decreases |s|
  {
    if s == [] then []
    else
      var k := FirstNewline(s);
      if k == |s| then [s]
      else [StripCarriageReturn(s[..k])] + Lines(s[k + 1..])
  }

  /** A line that `Lines` gives back unchanged: no '\n' inside and no '\r'
      that a terminator would swallow. */
  predicate IsPlainLine(l: string) {
    '\n' !in l && (l == [] || l[|l| - 1] != '\r')
  }

  /** Two plain lines side by side make a plain line. */
  lemma PlainConcat(a: string, b: string)
    requires IsPlainLine(a) && IsPlainLine(b)
    ensures IsPlainLine(a + b)
  {
    assert forall c :: c in a + b ==> c in a || c in b;
    if b != [] {
      assert (a + b)[|a + b| - 1] == b[|b| - 1];
    } else {
      assert a + b == a;
    }
  }

  /** Text made of the given lines, each followed by '\n'. */
  function JoinLines(ls: seq<string>): string {
    if ls == [] then [] else ls[0] + "\n" + JoinLines(ls[1..])
  }

  lemma FirstNewlineAt(a: string, b: string)
    requires '\n' !in a
    ensures FirstNewline(a + "\n" + b) == |a|
  {
    var s := a + "\n" + b;
    var k := FirstNewline(s);
    assert s[|a|] == '\n';
  }

  /** Splitting joined plain lines gives the lines back. */
  lemma {:induction false} LinesOfJoinLines(ls: seq<string>)
    requires forall i :: 0 <= i < |ls| ==> IsPlainLine(ls[i])
    ensures Lines(JoinLines(ls)) == ls
    decreases |ls|
  {
    if ls != [] {
      LinesCons(ls[0], JoinLines(ls[1..]));
      LinesOfJoinLines(ls[1..]);
      assert ls == [ls[0]] + ls[1..];
    }
  }

  /** A plain line followed by '\n' splits off as the first line. */
  lemma LinesCons(line: string, rest: string)
    requires IsPlainLine(line)
    ensures Lines(line + "\n" + rest) == [line] + Lines(rest)
  {
    var s := line + "\n" + rest;
    FirstNewlineAt(line, rest);
    assert s[..|line|] == line;
    assert s[|line| + 1..] == rest;
  }

  /** A final line without a '\n' after it is kept whole, '\r' and all. */
  lemma LinesUnterminated(s: string)
    requires s != [] && '\n' !in s
    ensures Lines(s) == [s]
  {
    assert FirstNewline(s) == |s|;
  }

  /** A "\r\n" terminator is removed whole: the line loses its '\r'. */
  lemma LinesCrLf(a: string, rest: string)
    requires '\n' !in a
    ensures Lines(a + "\r\n" + rest) == [a] + Lines(rest)
  {
    var ar := a + "\r";
    var s := ar + "\n" + rest;
    assert a + "\r\n" + rest == s;
    assert '\n' !in ar by {
      assert forall c :: c in ar ==> c in a || c == '\r';
    }
    FirstNewlineAt(ar, rest);
    assert s[..|ar|] == ar;
    assert s[|ar| + 1..] == rest;
    assert ar[..|ar| - 1] == a;
  }

  /** Joined plain lines followed by an unterminated last line split into
      the lines and that last line. */
  lemma {:induction false} LinesOfJoinLinesThen(ls: seq<string>, last: string)
    requires forall i :: 0 <= i < |ls| ==> IsPlainLine(ls[i])
    requires last != [] && '\n' !in last
    ensures Lines(JoinLines(ls) + last) == ls + [last]
    decreases |ls|
  {
    if ls == [] {
      assert JoinLines(ls) + last == last;
      LinesUnterminated(last);
    } else {
      assert forall i :: 0 <= i < |ls[1..]| ==> IsPlainLine(ls[1..][i]) by {
        assert forall i :: 0 <= i < |ls[1..]| ==> ls[1..][i] == ls[i + 1];
      }
      LinesOfJoinLinesThen(ls[1..], last);
      LinesThenStep(ls, last);
    }
  }

  /** The inductive step: one more plain line in front. */
  lemma LinesThenStep(ls: seq<string>, last: string)
    requires ls != [] && IsPlainLine(ls[0])
    requires Lines(JoinLines(ls[1..]) + last) == ls[1..] + [last]
    ensures Lines(JoinLines(ls) + last) == ls + [last]
  {
    var t := JoinLines(ls[1..]) + last;
    JoinLinesThen(ls, last);
    LinesCons(ls[0], t);
    AppendAfterHead(ls, last);
  }

  lemma AppendAfterHead(xs: seq<string>, y: string)
    requires xs != []
    ensures xs + [y] == [xs[0]] + (xs[1..] + [y])
  {
    assert xs == [xs[0]] + xs[1..];
  }

  /** Text after joined lines re-associates onto the rest of the join. */
  lemma JoinLinesThen(ls: seq<string>, last: string)
    requires ls != []
    ensures JoinLines(ls) + last == ls[0] + "\n" + (JoinLines(ls[1..]) + last)
  {
    var rest := JoinLines(ls[1..]);
    assert JoinLines(ls) == ls[0] + "\n" + rest;
    assert ls[0] + "\n" + rest + last == ls[0] + "\n" + (rest + last);
  }

  /** Index just past the last '/' of `s`, or 0 when it has none. */
  function SegmentStart(s: string): (k: nat)
    ensures k <= |s|
    ensures forall i :: k <= i < |s| ==> s[i] != '/'
    ensures k > 0 ==> s[k - 1] == '/'
    decreases |s|
  {
    if s == [] then 0
    else if s[|s| - 1] == '/' then |s|
    else SegmentStart(s[..|s| - 1])
  }

  /** The text after the last '/', or the whole text when it has none: the
      first item of Rust's `rsplit('/')`, which always exists. */
  function LastSegment(s: string): (r: string)
    ensures '/' !in r
    ensures |r| <= |s| && r == s[|s| - |r|..]
    ensures |r| < |s| ==> s[|s| - |r| - 1] == '/'
  {
    s[SegmentStart(s)..]
  }

  /** The segment after the separator of `dir + "/" + name` is `name`. */
  lemma LastSegmentOfJoin(dir: string, name: string)
    requires '/' !in name
    ensures LastSegment(dir + "/" + name) == name
  {
    var s := dir + "/" + name;
    var r := LastSegment(s);
    assert s[|s| - |name|..] == name;
    assert s[|s| - |name| - 1] == '/';
  }
}

=== FILE: update.dfy ===
/** `update` of plugin/src/main.rs: the dispatch of host events to the
    handlers, with the flag that asks the host to re-render. */
module Plugin {
  import opened Wrappers
  import opened Parsers
  import opened PluginState
  import opened KeyHandlers
  import opened ResultHandlers
  import opened Commands

  /** The host events the plugin reacts to; every other event is
      `OtherEvent`. Command output arrives as decoded text. */
  datatype Event =
    | PermissionGranted
    | PermissionDenied
    | CommandResult(exitCode: Option<int>, stdout: string, stderr: string, context: map<string, string>)
    | KeyPress(key: Key)
    | OtherEvent

  /** The outcome of one event: the next state, the effects requested, and
      whether the host should render again. */
  datatype Reaction = Reaction(next: State, effects: seq<Effect>, render: bool)

  const PermissionDeniedMessage: string := "Permissions denied. Plugin cannot run commands."

  /** The key handler of the current mode; `Loading` ignores keys. */
  function HandleKey(s: State, key: Key): (t: Transition)
    ensures s.mode == Loading ==> t == Transition(s, [])
    ensures s.mode == BrowseWorktrees ==> t == HandleKeyBrowse(s, key)
    ensures s.mode == SelectBranch ==> t == HandleKeySelectBranch(s, key)
    ensures s.mode == InputBranch ==> t == HandleKeyInputBranch(s, key)
    ensures s.mode == Confirming ==> t == HandleKeyConfirming(s, key)
    ensures KeepsRepoData(s, t.next)
  {
    match s.mode
    case Loading => Transition(s, [])
    case BrowseWorktrees => HandleKeyBrowse(s, key)
    case SelectBranch => HandleKeySelectBranch(s, key)
    case InputBranch => HandleKeyInputBranch(s, key)
    case Confirming => HandleKeyConfirming(s, key)
  }

  /** A finished command, routed by its context; an unknown or missing
      `cmd_type` changes nothing. */
  function HandleResult(s: State, exitCode: Option<int>, stdout: string, stderr: string,
                        context: map<string, string>, home: string): (t: Transition)
    ensures Route(context).None? ==> t == Transition(s, [])
    ensures Route(context) == Some(Toplevel) ==> t == HandleGitToplevel(s, exitCode, stdout, stderr)
    ensures Route(context) == Some(ListWorktrees) ==> t == HandleListWorktrees(s, stdout, home)
    ensures Route(context) == Some(Branches) ==> t == HandleGitBranches(s, stdout)
    ensures Route(context) == Some(Spawn) ==> t == HandleSpawnResult(s, exitCode, stderr, context)
    ensures Route(context) == Some(Remove) ==> t == HandleRemoveResult(s, exitCode, stderr, context)
    ensures t.next.agentCmd == s.agentCmd && t.next.spawnAgentPath == s.spawnAgentPath
    ensures t.next.inputBuffer == s.inputBuffer && t.next.filteredBranches == s.filteredBranches
  {
    match Route(context)
    case None => Transition(s, [])
    case Some(kind) => Dispatch(kind, s, exitCode, stdout, stderr, context, home)
  }

  /** The handler of each kind of command. */
  function Dispatch(kind: CommandKind, s: State, exitCode: Option<int>, stdout: string, stderr: string,
                    context: map<string, string>, home: string): Transition
  {
    match kind
    case Toplevel => HandleGitToplevel(s, exitCode, stdout, stderr)
    case ListWorktrees => HandleListWorktrees(s, stdout, home)
    case Branches => HandleGitBranches(s, stdout)
    case Spawn => HandleSpawnResult(s, exitCode, stderr, context)
    case Remove => HandleRemoveResult(s, exitCode, stderr, context)
  }

  /** `update`. Granted permission asks for the repository root; denied
      permission shows an error; command results and keys go to their
      handlers. Every event except `OtherEvent` asks for a render. */
  function Update(s: State, ev: Event, home: string): (r: Reaction)
    ensures r.render <==> !ev.OtherEvent?
    ensures ev.OtherEvent? ==> r == Reaction(s, [], false)
    ensures ev.PermissionGranted? ==> r.next == s && r.effects == [RunToplevel]
    ensures ev.PermissionDenied?
         ==> r.next == s.(statusMessage := PermissionDeniedMessage, statusIsError := true) && r.effects == []
    ensures r.next.agentCmd == s.agentCmd && r.next.spawnAgentPath == s.spawnAgentPath
  {
    match ev
    case PermissionGranted => Reaction(s, [RunToplevel], true)
    case PermissionDenied =>
      Reaction(s.(statusMessage := PermissionDeniedMessage, statusIsError := true), [], true)
    case CommandResult(exitCode, stdout, stderr, context) =>
      var t := HandleResult(s, exitCode, stdout, stderr, context, home);
      Reaction(t.next, t.effects, true)
    case KeyPress(key) =>
      var t := HandleKey(s, key);
      Reaction(t.next, t.effects, true)
    case OtherEvent => Reaction(s, [], false)
  }

  /** A sequence of events from state `s`: the final state and every effect
      requested, in order. */
  function Run(s: State, evs: seq<Event>, home: string): (t: Transition)
    decreases |evs|
  {
    if evs == [] then Transition(s, [])
    else
      var r := Update(s, evs[0], home);
      var rest := Run(r.next, evs[1..], home);
      Transition(rest.next, r.effects + rest.effects)
  }
}

=== FILE: wrappers.dfy ===
/** The optional-value datatype used where the plugin's code works with
    Rust's `Option` (exit codes, map lookups, prefix stripping). */
module Wrappers {

  datatype Option<+T> = None | Some(value: T) {

    /** The value if present, otherwise `default` (Rust's `unwrap_or`). */
    function GetOr(default: T): T {
      match this
      case Some(v) => v
      case None => default
    }
  }
}
